=== FILE: README.md ===
# ktsuss, modelled in Dafny

ktsuss is a small graphical front end that runs a command as another user.
`main` scans its options (`-u`/`--user`, `-m`/`--message`, `-h`/`--help`,
`-v`/`--version`), takes the first argument without a dash as the command,
defaults the target user to root and runs the command directly when the
caller already is that user. Otherwise it shows a password dialog up to
three times. Each answer is checked by a backend that probes the elevation
program with a no-op command and reads the verdict off the child's exit
status. On success the backend runs the real command inside a
pseudoterminal. It puts the invoking terminal in raw mode and relays bytes
both ways until the session ends, then restores the terminal. The password's
bytes are zeroed after every attempt the process survives; a backend that ends
the process through `err(1, ...)` leaves them in place.

There are two backends:

- **su.** su runs in a pseudoterminal. The password is typed into it once
  the prompt appears (at most 500 polls). The relay stops when reading the
  pseudoterminal returns 0 or -1.
- **sudo.** sudo reads the password from a pipe that holds one line. The
  relay stops as soon as the non-blocking wait no longer reports the child
  as running.

The model replaces every system call by the result it returned. These
results are supplied as data:

- each `select` of the prompt wait;
- per relay iteration, the non-blocking wait's answer and the readiness
  `select` reports;
- each `read` on the pseudoterminal and on standard input, in the order the
  reads happen;
- the outcome of `pipe`, `fork`, `waitpid`, `tcgetattr` and `tcsetattr`.

A backend call yields the ordered list of effects it performed. These
include spawning a child with a given argument vector and given standard
streams, writes to the pseudoterminal or to the pipe, and the terminal
states written. It also yields how the call finished: it returned, it ended
the process through `err(1, ...)`, or the supplied events ran out first.

Every real run takes a `Terminal.RawMode`, which says which raw state `tty_raw`
installs. `AsWritten` is the program as it stands: the raw state is derived
from a static that is never assigned (see Findings below). `Corrected` derives
it from the state the backend captured. Every contract about the terminal is
stated for both modes.

Modules, one file each:

- `Base`: options, bytes, C strings, `g_strjoinv`.
- `Errors`: result codes.
- `WaitStatus`: status word macros and the classifier.
- `Terminal`: `tty_raw`.
- `Relay`: relay events.
- `Process`: effects, and the raw-mode/relay/restore session both backends share.
- `SuBackend`, `SudoBackend`: the two backends.
- `Options`: the option scanner.
- `Driver`: the rest of `main` and the retry loop.

## Model

| member | source | states |
|---|---|---|
| `Base.JoinWords` | src/ktsuss.c:299-301 | The command line handed to the backend is the arguments from the command on, joined by single spaces. A single word is passed unchanged. The command argument is always a prefix of the joined line. |
| `Base.JoinWordsFirst` | src/ktsuss.c:301 | Read from the front, the joined line is the first word, a single space, then the remaining words joined. With the one-word case this determines the line completely. |
| `Base.JoinWordsLength` | src/ktsuss.c:301 | The joined line is as long as all the words together plus one separator between each two neighbours. |
| `WaitStatus.MacrosDecode` | src/su_backend.c:151-156 | On any status the kernel can encode: `WIFEXITED` holds exactly for a normal exit and `WEXITSTATUS` recovers its code. `WIFSIGNALED` holds exactly for a death by signal and `WTERMSIG` recovers the signal. |
| `WaitStatus.Classify` | src/su_backend.c:151-158 | The probe's verdict is always one of success, wrong user or password, or the bare -1. |
| `WaitStatus.ClassifyMeaning` | src/sudo_backend.c:91-98 | Each direction holds. Success exactly when the child exited with code 0. -1 exactly when a signal killed it. Wrong user or password exactly for a non-zero exit, a stop or a continue. |
| `WaitStatus.StatusAfterWait` | src/su_backend.c:137-146 | After a successful wait the status word is the one the kernel reported. After a failed wait it keeps its initial 0. |
| `WaitStatus.FailedWaitIsSuccess` | src/sudo_backend.c:68-92 | A wait whose failure goes unchecked leaves a status word that reads as "exited with 0", so the probe reports success. |
| `Terminal.TtyRaw` | src/ktsuss.c:133-141 | Corrected `tty_raw`, applied to the state the backend captured. It clears BRKINT, ICRNL, INPCK, ISTRIP and IXON, clears OPOST, sets CS8 and clears ECHO, ICANON, IEXTEN and ISIG. It ends with VMIN=0 and VTIME=8 and leaves every other bit and slot as captured. |
| `Terminal.RawOfUnique` | src/ktsuss.c:134-141 | The raw-mode description determines the result completely: two states that are both raw forms of the same state are equal. |
| `Terminal.TtyRawIdempotent` | src/ktsuss.c:133-141 | Applying raw mode to a state already in raw mode changes nothing. |
| `Terminal.RawAsWritten` | src/ktsuss.c:129-141 | `tty_raw` as written copies from the main program's never-assigned, zero-filled static. Whatever was captured, the installed state has CS8 as its only control flag and no input, output or local flags. |
| `Terminal.RawState` | src/ktsuss.c:129-141 | The state a backend installs. As written, it is the raw form of the zero static the program copies from. Corrected, it is the raw form of the captured state. |
| `Terminal.RawAsWrittenIgnoresCapture` | src/ktsuss.c:133 | The installed raw state is the same whatever state the backend captured. |
| `Terminal.RawAsWrittenDropsReceiver` | src/ktsuss.c:133-136 | On a 38400-baud console with the receiver on, the corrected raw state keeps CREAD and the speed. The state as written drops CREAD and sets the speed bits to 0. |
| `Relay.ChunksOf` | src/su_backend.c:201-202 | A child's output arrives as non-empty reads of at most 1024 bytes whose payloads, laid end to end, are exactly that output. |
| `Process.EnterRaw` | src/su_backend.c:177-186 | ENOTTY means no raw mode and no error. Any other `tcgetattr` failure ends the process. On a terminal, exactly one state is written: the raw state of the given mode. As written, that is the raw form of the zero static, whatever was captured. The captured state is kept for the restore. |
| `Process.Restore` | src/su_backend.c:217-219 | The captured state is written back exactly when there was one and `tcsetattr` succeeds. A failure ends the process. With no terminal, nothing is written. |
| `Process.Session` | src/sudo_backend.c:135-172 | In either raw mode, the raw-mode, relay and restore sequence stops short only if raw mode was entered and the supplied relay events ran out. |
| `Process.SessionOrder` | src/su_backend.c:178-219 | On return the effects are exactly, in order: the mode's raw state (when a state was captured), the relay, the tail, closing the pty, and the captured state. So the relay runs in raw mode, and the restore comes after the pty is closed. |
| `Process.SessionRestores` | src/sudo_backend.c:136-172 | On return the terminal writes are exactly the mode's raw state followed by the captured state, or nothing when standard input is no terminal. As written, the first write is the zero-derived state. The captured state is the last effect. Returning implies that both `tcsetattr` calls succeeded. |
| `Process.SessionRelays` | src/su_backend.c:188-219 | On return the relay ended on one of its own exits (pty end or child gone), the code between relay and close completed, and the relay and the pty close both appear among the effects. |
| `Process.SessionAbortLeavesTerminal` | src/su_backend.c:178-219 | A session that ends the process has written at most the mode's raw state, and only when `tcgetattr` captured a state and raw mode was set. It never writes the restore. With no terminal it writes nothing. |
| `Process.AfterCredential` | src/sudo_backend.c:114-172 | In either raw mode: a run returns only if its credential phase returned. It stops short only if the credential phase did, or the relay ran out of events. Its effects start with the credential phase's. |
| `Process.AfterCredentialOrder` | src/sudo_backend.c:114-172 | On return the effects are the credential phase's followed by exactly those of a returned session: raw state, relay, tail, pty close, restore. |
| `Process.AfterCredentialRestores` | src/su_backend.c:175-219 | If the credential phase leaves the terminal alone, then on return the terminal writes are the mode's raw state then the captured state (nothing without a terminal). The captured state is written last. |
| `Process.AfterCredentialRelays` | src/su_backend.c:188-215 | On return the relay ended on one of its own exits, and the relay and the pty close are among the run's effects. |
| `Process.AfterCredentialAbortLeavesTerminal` | src/sudo_backend.c:136-172 | A run that ends the process or stops short writes the mode's raw state exactly when the credential phase returned, a state was captured and raw mode was set, and writes nothing else. In particular it never restores. With no terminal it writes nothing. |
| `SuBackend.ProbeAndRunArgv` | src/su_backend.c:138-169 | Both vectors are {su path, user, "-p" ("-m" on FreeBSD), "-c", X}. X is "exit" for the probe and the joined command, verbatim, for the run. |
| `SuBackend.PasswordLine` | src/su_backend.c:124-125 | The bytes typed are a prefix of password + newline, of length min(len+1, 63). |
| `SuBackend.PasswordLineNewline` | src/su_backend.c:124-125 | Passwords of at most 62 bytes are sent with their newline. From 63 bytes on, only the first 63 password bytes are sent and the newline is lost. |
| `SuBackend.PromptWaitFrom` | src/su_backend.c:103-115 | From any poll on, the wait stops at the first poll that finds output (or fails), within the 500-poll bound, and every poll before it was quiet. It gives up only if every remaining poll was quiet. |
| `SuBackend.PromptWait` | src/su_backend.c:103-121 | At most 500 polls. It gives up (and the child is then killed) exactly when all 500 polls were quiet. |
| `SuBackend.PromptSeenAt` | src/su_backend.c:103-115 | Conversely, if the first readable poll is number j < 500, the wait ends there after j+1 polls. |
| `SuBackend.EndSu` | src/su_backend.c:65-80 | One poll. A single drain read happens exactly when the pty is readable. A failed poll ends the process. |
| `SuBackend.InitSu` | src/su_backend.c:84-131 | It returns exactly when the fork worked, the prompt came and the drain poll did not fail. With no prompt the process ends. Once the fork worked, the first effect is spawning su in the pty with the given argv. On return the effects begin: spawn su, read the prompt, write the password line. The terminal is never touched. |
| `SuBackend.InitSuOrder` | src/su_backend.c:84-131 | On return the effects are exactly: spawn su, read the prompt, write the password line, then the drain. |
| `SuBackend.InitSuKillsOnlyWithoutPrompt` | src/su_backend.c:117-125 | su is sent SIGKILL exactly when no prompt arrived. The password line is written at most once, as the third effect, and only after a prompt. |
| `SuBackend.CheckPasswordSu` | src/su_backend.c:135-159 | It returns exactly when the fork, the prompt and both drain polls succeed. The verdict is the classification of the status after the unchecked wait. Once the fork worked, the probe argv for the given user is spawned first. On return the effects are exactly: spawn, read the prompt, write the password line, the first drain, the wait, the second drain, close the pty. |
| `SuBackend.CheckPasswordSuVerdict` | src/su_backend.c:146-158 | In terms of the child's fate: success exactly for exit code 0, and also for a failed wait. -1 exactly for a signal. Wrong user or password otherwise. |
| `SuBackend.SuRelayFrom` | src/su_backend.c:188-212 | The relay performs at most as many reads as supplied and never ends because the child exited. |
| `SuBackend.SuRelayCopiesInOrder` | src/su_backend.c:200-210 | The bytes passed to `write` on standard output are exactly the pty reads' bytes, and those passed to `write` on the pty exactly standard input's, in read order. Each iteration reads at most one side. |
| `SuBackend.SuRelayEndsAtPtyEnd` | src/su_backend.c:198-204 | It ends on the pty exactly at the first pty read returning 0 or -1. No earlier read did. A `select` failure is the only other exit, and it happens in an iteration whose `select` failed. |
| `SuBackend.SuRelayIgnoresWaitAndDefersStdin` | src/su_backend.c:189-210 | The non-blocking wait's answer never affects the relay. Standard input's readiness does not matter in an iteration where the pty is readable. |
| `SuBackend.SuRelayReadsToEnd` | src/su_backend.c:200-204 | With the pty readable every iteration, the relay reads the pty stream up to and including its first end, and stops there. |
| `SuBackend.SuRelayDeliversPayload` | src/su_backend.c:200-204 | For a child that writes a payload and closes, all of the payload reaches standard output, however many reads it takes, and the relay then stops. |
| `SuBackend.RunSu` | src/su_backend.c:163-220 | In either raw mode: it returns only after the fork, the prompt and the drain poll succeeded. It stops short only if the relay ran out of supplied events. |
| `SuBackend.RunSuSpawnsFirst` | src/su_backend.c:163-173 | Once the fork worked, returning or not, the run's first effect spawns su with the real command for the given user. |
| `SuBackend.RunSuPasswordFirst` | src/su_backend.c:175-186 | On return: su was spawned with the real command and the password typed before anything touched the terminal. |
| `SuBackend.RunSuOrder` | src/su_backend.c:163-219 | On return the effects are exactly: spawn su with the real command for the user, read the prompt, write the password line, the drain, then the mode's raw state (with a terminal), the relay, the `end_su` drain, closing the pty and the restore. So the relay runs in raw mode. |
| `SuBackend.RunSuRestoresTerminal` | src/su_backend.c:178-219 | On return the terminal writes are exactly the mode's raw state then the captured state (none without a terminal), and the captured state is written last. As written, the raw state is the zero-derived one. The relay ended at the pty's end, and the pty was closed. |
| `SuBackend.RunSuAbortLeavesTerminal` | src/su_backend.c:178-219 | A run that ends the process or stops short wrote the mode's raw state exactly when the fork worked, the prompt came, the drain poll did not fail, a state was captured and raw mode was set. It wrote nothing else, so it never restores. With no terminal, nothing is written. |
| `SudoBackend.ProbeAndRunArgv` | src/sudo_backend.c:69-105 | Both vectors are {sudo path, "-u", user, "-k", "-S", "-p", "", "-E", X}. X is "true" for the probe and the joined command, verbatim, for the run. |
| `SudoBackend.CredentialLine` | src/sudo_backend.c:86-87 | For a password of at most 62 bytes, the line is the password followed by one newline, and it fits the 64-byte buffer with its terminator. |
| `SudoBackend.CheckPasswordSudo` | src/sudo_backend.c:66-99 | It returns exactly when `pipe` and `fork` work, and a `pipe` failure ends the process before anything else happens. The effects are: open the pipe; spawn sudo with stdin from the pipe and stderr to /dev/null; close the read end; write the line; close the write end; wait. The verdict is the classification of the status after that wait. |
| `SudoBackend.CheckPasswordSudoVerdict` | src/sudo_backend.c:90-98 | In terms of the child's fate: success exactly for exit code 0, and also for a failed wait. -1 exactly for a signal. Wrong user or password otherwise. |
| `SudoBackend.SudoRelayFrom` | src/sudo_backend.c:146-166 | The relay performs at most as many reads as supplied, and a pty read of 0 or -1 never ends it. |
| `SudoBackend.SudoRelayCopiesInOrder` | src/sudo_backend.c:157-164 | The bytes passed to `write` on standard output are exactly the pty reads' bytes, and those passed to `write` on the pty exactly standard input's, in read order, with nothing added or dropped. |
| `SudoBackend.SudoRelayOneReadPerIteration` | src/sudo_backend.c:157-164 | Each iteration reads from at most one side. |
| `SudoBackend.SudoRelayRunsWhileChildRuns` | src/sudo_backend.c:146 | Every iteration before the last saw the child running. The loop leaves through the wait exactly when the last poll did not report the child as running. |
| `SudoBackend.SudoRelaySelectFailure` | src/sudo_backend.c:155 | The relay leaves through a `select` failure only in an iteration whose `select` failed. |
| `SudoBackend.SudoRelayDefersStdin` | src/sudo_backend.c:157-164 | Standard input's readiness does not matter in an iteration where the pty is readable. |
| `SudoBackend.SudoSetup` | src/sudo_backend.c:114-133 | The credential phase returns exactly when `pipe` and `forkpty` work. It then opens the pipe, starts sudo in the pty with stdin from the pipe, closes the read end, writes the line and closes the write end, and touches no terminal. |
| `SudoBackend.RunSudo` | src/sudo_backend.c:103-173 | In either raw mode: it returns only after `pipe` and `forkpty` worked, and a `pipe` failure ends the process with no effect. It stops short only if the relay ran out of supplied events. |
| `SudoBackend.RunSudoFeedsPipeFirst` | src/sudo_backend.c:130-146 | The first five effects are the pipe, the spawn and the complete credential hand-over, before any terminal write and before the relay. |
| `SudoBackend.RunSudoOrder` | src/sudo_backend.c:103-172 | On return the effects are exactly: open the pipe, spawn sudo with the real command for the user, the credential hand-over, then the mode's raw state (with a terminal), the relay, closing the pty and the restore. So the relay runs in raw mode. |
| `SudoBackend.RunSudoRestoresTerminal` | src/sudo_backend.c:136-172 | On return the terminal writes are exactly the mode's raw state then the captured state (none without a terminal), and the captured state is written last. As written, the raw state is the zero-derived one. The relay ended because the child was no longer running, and the pty was closed. |
| `SudoBackend.RunSudoAbortLeavesTerminal` | src/sudo_backend.c:136-172 | A run that ends the process or stops short wrote the mode's raw state exactly when `pipe` and `forkpty` worked, a state was captured and raw mode was set. It wrote nothing else, so it never restores. With no terminal, nothing is written. |
| `Options.ScanFrom` | src/ktsuss.c:181-204 | A found command index lies after the scan's start, inside the arguments, on an argument not starting with a dash. A given user or message is never lost. The only scan errors are missing user, missing message and missing command. |
| `Options.MessageCheck` | src/ktsuss.c:194-200 | The same guarantees for the second half of an iteration, which re-reads the current argument as a possible message flag. |
| `Options.ScanArguments` | src/ktsuss.c:181-204 | The loop as written, with its early exits, computes the same result as the recursive scan. |
| `Options.UnknownOptionsSkipped` | src/ktsuss.c:181-201 | A run of unrecognised dash arguments is stepped over without error and without effect. |
| `Options.CommandIsFirstPlainArgument` | src/ktsuss.c:181-204 | With no recognised option before it, the command is the first argument not starting with a dash. Running out of arguments first is exactly the missing-command error. |
| `Options.PlainArgumentsBeforeCommandAreValues` | src/ktsuss.c:181-201 | Every argument before the command that does not start with a dash directly follows a `-u` or `-m` flag, and so is that flag's value. |
| `Options.PlainValuesInMessageCheck` | src/ktsuss.c:194-201 | The same, from the second half of an iteration. |
| `Options.UserFlagTakesValue` | src/ktsuss.c:188-193 | `-u` takes the next argument as the user name, whatever it looks like. With no next argument the scan fails with the missing-user error. |
| `Options.MessageFlagTakesValue` | src/ktsuss.c:194-199 | `-m` takes the next argument as the message and scanning resumes after it. With no next argument the scan fails with the missing-message error. |
| `Options.UserValueAlsoReadAsMessageFlag` | src/ktsuss.c:188-199 | A user name spelled like the message flag is also read as the message flag in the same iteration: `-u -m text` sets user "-m" and message "text". |
| `Options.HelpAndVersionEndScan` | src/ktsuss.c:184-187 | A help or version flag the scan reaches ends it. The same flag consumed as `-u`'s value does not. |
| `Driver.SelectBackend` | src/ktsuss.c:290-306 | sudo is used whenever its path is configured, and su only otherwise. |
| `Driver.TargetUser` | src/ktsuss.c:221-222 | The target is the user given with `-u`, else "root". |
| `Driver.DialogMessage` | src/ktsuss.c:234-237 | A given message is shown as is. Otherwise, with `-u`, the text is "Please enter the\npassword for " + user + ":". Otherwise it is the ask-for-both text. |
| `Driver.Launch` | src/ktsuss.c:203-237 | Errors never report success, a wrong password or -1. The dialog is shown only after a successful scan, for a known caller who is not the target user. Its command line is the arguments from the command on, joined by spaces, and its program is the lookup of the command argument's first word. A direct start happens only for a caller who is the target user, and execs that program with the words of the command argument alone. |
| `Driver.LaunchSkipsAuthenticationForSelf` | src/ktsuss.c:221-232 | The dialog is shown exactly when the target user (root by default) differs from the caller. The command is exec'd directly exactly when they are the same and exec works, with the parsed words of the command argument as its argv. When they are the same and exec fails, the result is permission denied. |
| `Driver.DirectStartDropsLaterArguments` | src/ktsuss.c:207-232 | For `ktsuss ls -l`, a caller who is the target user gets `ls` exec'd with argv ["ls"], without `-l`. Any other caller gets a dialog whose command line is "ls -l". |
| `Driver.LaunchReportsScanFirst` | src/ktsuss.c:203-214 | Help, version and scan errors are reported before the command is looked at. A command that does not parse or resolve is an invalid command. |
| `Driver.ParseCommand` | src/ktsuss.c:207-214 | The command is usable exactly when the command argument splits into at least one word and the first word is found on the search path. The program is that lookup's result, and the argv is the words. |
| `Driver.CheckPassword` | src/ktsuss.c:290-294 | The configured backend's probe always finishes. Its verdict is success, wrong user or password, or -1. It returns only if the backend got as far as forking, and once it does, it spawns the probe child for the given user. A probe that returned wrote the password's line to that child: on su's pty, or on sudo's pipe. |
| `Driver.SpawnNamesUser` | src/ktsuss.c:291-305 | The probe child and the run child each name their user: two different users never give the same child, and the run child also fixes the command line. A probe child equals a run child only when the command line is the probe's no-op. |
| `Driver.RunCommand` | src/ktsuss.c:302-306 | Whichever backend runs, a run that returns wrote exactly the mode's raw state and then the captured state to a terminal. As written, the raw state is the zero-derived one. It never touches a standard input that is no terminal. It returns only if the backend got as far as forking, and once it does, it spawns the run child for the given user and command line. A run that returned wrote the password's line to that child. |
| `Driver.RunCommandOnConsole` | src/ktsuss.c:302-306 | On a 38400-baud console with the receiver on, a run as written installs a raw state with the receiver off and speed 0, and a corrected run keeps both. Either way the restore puts the console back. |
| `Driver.Wipe` | src/ktsuss.c:315 | The password's memory after `memset` has the password's length and holds only zero bytes. |
| `Driver.TryOnce` | src/ktsuss.c:285-316 | The attempt's user is the `-u` user, else the typed name, and its password is the typed one. The probe child spawned is the one for that user, and the run child is the one for that user and the joined command line. A probe or run that returned wrote the typed password's line to its child. The command runs exactly when the probe said success. The password is zeroed exactly when the process survived the backend, and a refused attempt always survives. |
| `Driver.Answers` | src/ktsuss.c:284-288 | One entry per dialog answer, and an attempt exactly for OK. |
| `Driver.RetryLoop` | src/ktsuss.c:284-327 | At most three attempts, one per OK answer read. Each probes the `-u` user (else the typed one): the returned probe and run spawned that user's children and wrote the typed password's line to them. Every attempt but the last was refused, ran nothing and had its password zeroed. The loop succeeds exactly when the last attempt's run returned. Each refusal is shown with its own code, and the loop gives up exactly when three were shown. The counter ends at 3 exactly on success or giving up. |
| `Driver.RetryFrom` | src/ktsuss.c:284-327 | The counter only grows and stays at most 3. There are at most 3 attempts. It ends at 3 exactly when a command ran and returned or the loop gave up, and it gives up exactly when the refusals fill the remaining count. Otherwise the counter is its start plus one per error dialog shown. |
| `Driver.RetryFollowsAnswers` | src/ktsuss.c:284-324 | Attempts come from consecutive OK answers. The loop leaves on Cancel exactly when it reads a Cancel after refusals only. |
| `Driver.RetryRunsCommandAtMostOnce` | src/ktsuss.c:291-310 | Every attempt but the last was refused and ran nothing. The command runs at most once, in the last attempt. The loop succeeds exactly when that run returned. It gives up only after three refusals in a row. |
| `Driver.RetryShowsEachRefusal` | src/ktsuss.c:317-321 | The i-th error dialog shows the code of the i-th attempt, and that attempt was refused. |
| `Driver.RetryWipesPasswords` | src/ktsuss.c:315-316 | Every attempt the loop moved past, and the last one when the loop cancelled, succeeded or gave up, has its password zeroed. When the process ended inside a backend, the last password was not zeroed. |
| `Driver.AnswerWellFormed` | src/ktsuss.c:285-316 | Each OK answer yields a well-formed attempt for the right user and the typed password. Its probe and its run spawned the children for that user, and each of them that returned was handed the typed password's line. |
| `Driver.AnswersAreRecords` | src/ktsuss.c:284-316 | The attempts the dialog's answers lead to are records of those answers. |
| `Driver.RetryLoopAttempts` | src/ktsuss.c:284-327 | At most three attempts, one per OK answer read, each for the `-u` user or else the typed one, with the typed password. Each returned probe spawned the probe child for that user and wrote the typed password's line to it. Each returned run did the same for the run child with the command line. The loop gives up exactly when three error dialogs were shown. |
| `Driver.RetryLoopOutcome` | src/ktsuss.c:284-327 | Over real attempts: every attempt but the last was refused, ran nothing and had its password zeroed. Success holds exactly when the last attempt's run returned. Each refusal is shown with its own code. |
| `Driver.SignaledProbeReachesErrorTable` | src/ktsuss.c:317-321 | A sudo probe killed by signal 9 makes the loop show the bare -1, a code with no entry in the error-message table that `Werror` indexes. |

## Left out

- GTK: building and running the dialogs, `Werror`'s display, and the help and version texts. The model keeps only the decisions: which exit, and which codes reach the error dialog.
- `get_real_name` (search-path lookup) and `g_shell_parse_argv`'s word splitting are foreign calls. They are function parameters of `Driver.Launch` (`resolve`, `parse`), which applies them to the command argument and its first word. `getuid`/`getpwuid` and the success of `execvp` are inputs.
- `forkpty`, `fork`, `pipe`, `dup2`, `setsid`, `signal`, `kill`, `read`, `select`, `waitpid` and `tcgetattr`/`tcsetattr` are not executed. Each one is an effect or a supplied result.
- Short and failed writes: every `write` is assumed to complete. The program ignores what `write` returns (src/su_backend.c:202, 209; src/sudo_backend.c:159, 163), and the model records the bytes passed to `write`, not the bytes the other side received.
- Timeouts and `usleep` durations: time is reduced to poll counts and per-iteration events. Kernel pty buffering and parent/child concurrency are reduced to the supplied event sequences.
- Relay loops without end: a relay that would run forever is cut off where the supplied events end (`OutOfEvents`, `Unfinished`).
- Only the four termios flag words and the control-character array are modelled, with Linux C library flag values. FreeBSD's values and the speed fields are not modelled.
- The numeric values of the result codes are not modelled, because the header that defines them is not part of this model. The -1 is a separate constructor, and `HasMessage` records that the error table has no entry for it.
- The password field's 32-character limit in the dialog is not modelled. The su model accepts any length, which is why `SuBackend.PasswordLine` shows the truncation at 63 bytes.
- SudoBackend.CredentialLine: requires a password of at most 62 bytes. A longer one overflows the 64-byte `sprintf` buffer, which is undefined behaviour.
- SudoBackend.CheckPasswordSudo: requires the same password bound for the sudo backend, because it feeds the password into that buffer (through `Driver.CredentialFits` in Driver).
- SudoBackend.CheckPasswordSudoVerdict: requires the same password bound for the sudo backend, because it feeds the password into that buffer (through `Driver.CredentialFits` in Driver).
- SudoBackend.SudoSetup: requires the same password bound for the sudo backend, because it feeds the password into that buffer (through `Driver.CredentialFits` in Driver).
- SudoBackend.RunSudo: requires the same password bound for the sudo backend, because it feeds the password into that buffer (through `Driver.CredentialFits` in Driver).
- SudoBackend.RunSudoFeedsPipeFirst: requires the same password bound for the sudo backend, because it feeds the password into that buffer (through `Driver.CredentialFits` in Driver).
- SudoBackend.RunSudoOrder: requires the same password bound for the sudo backend, because it feeds the password into that buffer (through `Driver.CredentialFits` in Driver).
- SudoBackend.RunSudoRestoresTerminal: requires the same password bound for the sudo backend, because it feeds the password into that buffer (through `Driver.CredentialFits` in Driver).
- SudoBackend.RunSudoAbortLeavesTerminal: requires the same password bound for the sudo backend, because it feeds the password into that buffer (through `Driver.CredentialFits` in Driver).
- Driver.CheckPassword: requires the same password bound for the sudo backend, because it feeds the password into that buffer (through `Driver.CredentialFits` in Driver).
- Driver.RunCommand: requires the same password bound for the sudo backend, because it feeds the password into that buffer (through `Driver.CredentialFits` in Driver).
- Driver.RunCommandOnConsole: requires the same password bound for the sudo backend, because it feeds the password into that buffer (through `Driver.CredentialFits` in Driver).
- Driver.TryOnce: requires the same password bound for the sudo backend, because it feeds the password into that buffer (through `Driver.CredentialFits` in Driver).
- Driver.Answers: requires the same password bound for the sudo backend, because it feeds the password into that buffer (through `Driver.CredentialFits` in Driver).
- Driver.RetryLoop: requires the same password bound for the sudo backend, because it feeds the password into that buffer (through `Driver.CredentialFits` in Driver).
- Driver.AnswerWellFormed: requires the same password bound for the sudo backend, because it feeds the password into that buffer (through `Driver.CredentialFits` in Driver).
- Driver.AnswersAreRecords: requires the same password bound for the sudo backend, because it feeds the password into that buffer (through `Driver.CredentialFits` in Driver).
- The rendered text of the error dialog ("Could not run '...'") is not modelled. Only the codes shown are recorded.
- Restore and zeroing on abort paths: the terminal is not restored, and the password is not zeroed, when a backend ends the process through `err(1, ...)`. This covers a failed `select`, `tcgetattr`, `tcsetattr`, `pipe` or `fork`, and a missing prompt. The model follows the code here (`RunSuAbortLeavesTerminal`, `RunSudoAbortLeavesTerminal`, `RetryWipesPasswords`), and nothing in the program restores or zeroes on those paths.


## Notes

- A signaled probe (-1) counts as a refusal like any other: the error dialog is shown with the -1 and the password dialog is shown again (src/ktsuss.c:317-321). `Driver.SignaledProbeReachesErrorTable` records this.
- The direct start (caller already the target user) execs the words of the command argument alone, while the dialog path hands the backend every argument from the command on, joined by spaces (src/ktsuss.c:207, 226, 301). `ktsuss ls -l` therefore runs `ls` without `-l` for the caller's own user. `Driver.DirectStartDropsLaterArguments` records this.
- The sudo relay ends whenever the non-blocking wait returns anything but 0, so a failed wait (-1) ends it as well as the child's exit (src/sudo_backend.c:146). The model represents that failure as `ChildPoll.PollError`.

## Findings

| source | as written | input that shows it | evidently intended | confidence | as-written member | corrected member |
|---|---|---|---|---|---|---|
| src/ktsuss.c:133 | `tty_raw` copies from the main program's file-static `orig_termios`, which nothing ever assigns, so it is all zeros. Each backend captures the real state into its own static. | A console whose control flags are B38400, CS8 and CREAD. The state installed has control flags CS8 alone: the receiver is off and the speed is 0 (hang up). Every other flag and control character is lost as well. | Derive the raw state from the state the backend just captured, and change only the raw-mode bits. | not executed | `Terminal.RawAsWritten` (the runs' `AsWritten` mode), shown by `Terminal.RawAsWrittenDropsReceiver` and, for a whole run, `Driver.RunCommandOnConsole` | `Terminal.TtyRaw` (the runs' `Corrected` mode) |

=== FILE: base.dfy ===
/** Vocabulary shared by every part of the model: optional values, bytes,
    C strings and the concatenations the program performs on them. */
module Base {

  /** A value that may be absent (a NULL pointer in the program). */
  datatype Option<T> = None | Some(value: T)

  /** One octet, as read from or written to a file descriptor. */
  newtype byte = b: int | 0 <= b < 256

  const NUL: byte := 0
  const NEWLINE: byte := 10

  /** True when `s` holds no NUL byte, so that `strlen` sees all of it. */
  predicate NoNul(s: seq<byte>)
  {
    forall i :: 0 <= i < |s| ==> s[i] != NUL
  }

  /** The contents of a C string, without its terminator. */
  type CString = s: seq<byte> | NoNul(s)

  /** True when every byte of `s` is zero. */
  predicate AllZero(s: seq<byte>)
  {
    forall i :: 0 <= i < |s| ==> s[i] == NUL
  }

  /** True when `s` starts with a dash, as `argv[i][0] == '-'` tests. An
      empty argument starts with its terminator and so does not. */
  predicate StartsWithDash(s: string)
  {
    |s| > 0 && s[0] == '-'
  }

  /** The words separated by single spaces, as `g_strjoinv(" ", words)`. */
  function JoinWords(words: seq<string>): (r: string)
    ensures |words| == 1 ==> r == words[0]
    ensures |words| > 0 ==> words[0] <= r
  {
    if |words| == 0 then ""
    else if |words| == 1 then words[0]
    else JoinWords(words[..|words| - 1]) + " " + words[|words| - 1]
  }

  /** Read from the front, the joined line is the first word, one space,
      and the remaining words joined. */
  lemma {:induction false} JoinWordsFirst(w: string, ws: seq<string>)
    requires |ws| > 0
    ensures JoinWords([w] + ws) == w + " " + JoinWords(ws)
    decreases |ws|
  {
    var n := |ws|;
    if n == 1 {
      assert ([w] + ws)[..1] == [w];
    } else {
      assert ([w] + ws)[..n] == [w] + ws[..n - 1];
      JoinWordsFirst(w, ws[..n - 1]);
    }
  }

  /** The total length of the words. */
  function TotalLength(words: seq<string>): nat
  {
    if |words| == 0 then 0 else |words[0]| + TotalLength(words[1..])
  }

  /** The joined line holds every character of the words and exactly one
      separator between each two neighbours. */
  lemma {:induction false} JoinWordsLength(words: seq<string>)
    requires |words| > 0
    ensures |JoinWords(words)| == TotalLength(words) + |words| - 1
    decreases |words|
  {
    if |words| > 1 {
      assert words == [words[0]] + words[1..];
      JoinWordsFirst(words[0], words[1..]);
      JoinWordsLength(words[1..]);
    }
  }
}

=== FILE: driver.dfy ===
/** The rest of `main`: after the scan it resolves the command, looks up
    the caller, defaults the target user to root, runs the command directly
    when the caller already is that user, and otherwise shows the password
    dialog up to three times, checking each answer with the configured
    backend and running the command once a check succeeds. */
module Driver {
  import opened Base
  import opened Errors
  import opened WaitStatus
  import opened Terminal
  import opened Process
  import opened Options
  import SuBackend
  import SudoBackend

  /** The backend a build uses: sudo when its path is configured, su
      otherwise. */
  datatype Backend = UseSu(platform: SuBackend.Platform, suPath: string) | UseSudo(sudoPath: string)

  function SelectBackend(platform: SuBackend.Platform, suPath: Option<string>,
                         sudoPath: Option<string>): (b: Option<Backend>)
    ensures b.None? <==> suPath.None? && sudoPath.None?
    ensures b.Some? && b.value.UseSu? ==> sudoPath.None? && b.value == UseSu(platform, suPath.value)
    ensures sudoPath.Some? ==> b == Some(UseSudo(sudoPath.value))
  {
    if sudoPath.Some? then Some(UseSudo(sudoPath.value))
    else if suPath.Some? then Some(UseSu(platform, suPath.value))
    else None
  }

  const ROOT: string := "root"
  const ASK_PASSWORD: string := "Please enter the\npassword for "
  const ASK_BOTH: string := "Please enter the desired\nusername and password:"

  /** The user the command is to run as: the one given, else root. */
  function TargetUser(user: Option<string>): (t: string)
    ensures user.Some? ==> t == user.value
    ensures user.None? ==> t == ROOT
  {
    if user.Some? then user.value else ROOT
  }

  /** The text shown in the dialog. */
  function DialogMessage(user: Option<string>, message: Option<string>): (m: string)
    ensures message.Some? ==> m == message.value
    ensures message.None? && user.Some? ==>
              && |m| == |ASK_PASSWORD| + |user.value| + 1
              && ASK_PASSWORD <= m && m[|ASK_PASSWORD|..|m| - 1] == user.value && m[|m| - 1] == ':'
    ensures message.None? && user.None? ==> m == ASK_BOTH
  {
    if message.Some? then message.value
    else if user.Some? then ASK_PASSWORD + user.value + ":"
    else ASK_BOTH
  }

  /** The dialog `main` builds: the user given with `-u` (the dialog then
      has no user name field), its message, the resolved program and the
      command line handed to the backend. */
  datatype Dialog = Dialog(explicitUser: Option<string>, message: string, program: string,
                           commandLine: string)

  /** How `main` proceeds once the arguments are scanned: print help (exit
      1) or version (exit 0), an error dialog and exit 1, exit 2 when the
      caller has no password entry, replace itself with the command, or ask
      for a password. */
  datatype Start =
    | ShowHelp
    | ShowVersion
    | Refused(code: ErrorCode)
    | UnknownCaller
    | ExecDirect(program: string, argv: seq<string>)
    | Ask(dialog: Dialog)

  /** A command ktsuss can start: the program found on the search path and
      the words of the command argument. */
  datatype Command = Command(program: string, argv: seq<string>)

  /** `g_shell_parse_argv` on the command argument, then `get_real_name` on
      its first word. `parse` splits a text into words the way a shell does
      and answers None on bad quoting; a text without words does not parse
      either. `resolve` is the search-path lookup. */
  function ParseCommand(parse: string -> Option<seq<string>>, resolve: string -> Option<string>,
                        text: string): (c: Option<Command>)
    ensures c.Some? <==> parse(text).Some? && |parse(text).value| > 0 && resolve(parse(text).value[0]).Some?
    ensures c.Some? ==> c.value.argv == parse(text).value && c.value.program == resolve(c.value.argv[0]).value
  {
    var words := parse(text);
    if words.None? || |words.value| == 0 then None
    else
      var program := resolve(words.value[0]);
      if program.None? then None else Some(Command(program.value, words.value))
  }

  /** The start of `main`. `parse` and `resolve` are the word splitting and
      the search-path lookup (see `ParseCommand`), `caller` the caller's
      login name if the password database knows it, and `execOk` whether
      replacing the process succeeds. */
  function Launch(args: seq<string>, parse: string -> Option<seq<string>>, resolve: string -> Option<string>,
                  caller: Option<string>, execOk: bool): (s: Start)
    requires 1 <= |args|
    ensures s.Refused? ==> s.code != Success && s.code != SignaledChild && s.code != WrongUserOrPasswd
    ensures s.Ask? ==> Scan(args).Scanned? && caller.Some? && caller.value != TargetUser(Scan(args).user)
    ensures s.Ask? ==> s.dialog.commandLine == JoinWords(args[Scan(args).command..])
    ensures s.Ask? ==> args[Scan(args).command] <= s.dialog.commandLine
    ensures s.Ask? ==> var c := ParseCommand(parse, resolve, args[Scan(args).command]);
                       c.Some? && s.dialog.program == c.value.program
    ensures s.ExecDirect? ==> && Scan(args).Scanned? && caller.Some? && caller.value == TargetUser(Scan(args).user)
                              && ParseCommand(parse, resolve, args[Scan(args).command]) == Some(Command(s.program, s.argv))
  {
    match Scan(args)
    case AskedHelp => ShowHelp
    case AskedVersion => ShowVersion
    case ScanError(code) => Refused(code)
    case Scanned(user, message, c) =>
      var command := ParseCommand(parse, resolve, args[c]);
      if command.None? then Refused(InvalidCommand)
      else if caller.None? then UnknownCaller
      else if TargetUser(user) == caller.value then
        if execOk then ExecDirect(command.value.program, command.value.argv) else Refused(PermissionDenied)
      else Ask(Dialog(user, DialogMessage(user, message), command.value.program, JoinWords(args[c..])))
  }

  /** The direct start runs the words of the command argument alone, while
      the dialog path hands the backend every argument from the command on:
      `ktsuss ls -l` runs `ls` without `-l` for the caller's own user. */
  lemma DirectStartDropsLaterArguments(parse: string -> Option<seq<string>>, resolve: string -> Option<string>)
    requires parse("ls") == Some(["ls"]) && resolve("ls") == Some("/bin/ls")
    ensures Launch(["ktsuss", "ls", "-l"], parse, resolve, Some(ROOT), true) == ExecDirect("/bin/ls", ["ls"])
    ensures var s := Launch(["ktsuss", "ls", "-l"], parse, resolve, Some("guest"), true);
            s.Ask? && s.dialog.commandLine == "ls -l"
  {
    var args := ["ktsuss", "ls", "-l"];
    assert Scan(args) == Scanned(None, None, 1);
    assert args[1..] == ["ls", "-l"];
    assert JoinWords(["ls", "-l"]) == "ls -l" by {
      JoinWordsFirst("ls", ["-l"]);
    }
  }

  /** Authentication is skipped exactly when the target user, root unless
      one was given, is the caller; the dialog then keeps the user given. */
  lemma LaunchSkipsAuthenticationForSelf(args: seq<string>, parse: string -> Option<seq<string>>,
                                         resolve: string -> Option<string>, caller: Option<string>, execOk: bool)
    requires 1 <= |args| && Scan(args).Scanned? && caller.Some?
    requires ParseCommand(parse, resolve, args[Scan(args).command]).Some?
    ensures var s := Launch(args, parse, resolve, caller, execOk);
            && (s.Ask? <==> TargetUser(Scan(args).user) != caller.value)
            && (s.ExecDirect? <==> TargetUser(Scan(args).user) == caller.value && execOk)
            && (TargetUser(Scan(args).user) == caller.value && !execOk ==> s == Refused(PermissionDenied))
            && (Scan(args).user.None? && caller.value == ROOT ==> !s.Ask?)
            && (s.Ask? ==> s.dialog.explicitUser == Scan(args).user)
            && (s.ExecDirect? ==> s.argv == parse(args[Scan(args).command]).value)
  {
  }

  /** The scan's verdicts come first: help, version and scanning errors are
      reported before the command is looked at. */
  lemma LaunchReportsScanFirst(args: seq<string>, parse: string -> Option<seq<string>>,
                               resolve: string -> Option<string>, caller: Option<string>, execOk: bool)
    requires 1 <= |args|
    ensures var s := Launch(args, parse, resolve, caller, execOk);
            && (Scan(args).AskedHelp? <==> s.ShowHelp?)
            && (Scan(args).AskedVersion? <==> s.ShowVersion?)
            && (Scan(args).ScanError? ==> s == Refused(Scan(args).code))
            && (Scan(args).Scanned? && ParseCommand(parse, resolve, args[Scan(args).command]).None? ==>
                  s == Refused(InvalidCommand))
  {
  }

  /** The password lines each backend can send. */
  predicate CredentialFits(backend: Backend, password: CString)
  {
    backend.UseSudo? ==> |password| + 2 <= SudoBackend.PASS_BUFFER
  }

  /** Whether the configured backend gets as far as starting its child:
      `fork` works, and for sudo `pipe` first. */
  predicate Forks(backend: Backend, pipeOk: bool, forkOk: bool)
  {
    (backend.UseSu? || pipeOk) && forkOk
  }

  /** The probe child the configured backend starts to check `username`. */
  function ProbeSpawn(backend: Backend, username: string): Effect
  {
    match backend
    case UseSu(p, path) => Spawn(SuBackend.SuChild(SuBackend.ProbeArgv(p, path, username)))
    case UseSudo(path) => Spawn(SudoBackend.ProbeChild(SudoBackend.ProbeArgv(path, username)))
  }

  /** The child the configured backend starts to run `commandLine` as
      `username`. */
  function RunSpawn(backend: Backend, username: string, commandLine: string): Effect
  {
    match backend
    case UseSu(p, path) => Spawn(SuBackend.SuChild(SuBackend.RunArgv(p, path, username, commandLine)))
    case UseSudo(path) => Spawn(SudoBackend.RunChild(SudoBackend.RunArgv(path, username, commandLine)))
  }

  /** The write that hands `password` to the configured backend's child:
      the typed line on su's pty, or the line on sudo's pipe. */
  function CredentialWrite(backend: Backend, password: CString): Effect
    requires CredentialFits(backend, password)
  {
    match backend
    case UseSu(_, _) => PtyWrite(SuBackend.PasswordLine(password))
    case UseSudo(_) => PipeWrite(SudoBackend.CredentialLine(password))
  }

  /** Each spawn names its user, and the run's spawn its command line:
      different users never lead to the same child. */
  lemma SpawnNamesUser(backend: Backend, u: string, v: string, c: string, d: string)
    ensures ProbeSpawn(backend, u) == ProbeSpawn(backend, v) ==> u == v
    ensures RunSpawn(backend, u, c) == RunSpawn(backend, v, d) ==> u == v && c == d
    ensures ProbeSpawn(backend, u) != RunSpawn(backend, v, c) || c == (if backend.UseSu? then "exit" else "true")
  {
    if backend.UseSu? {
      assert ProbeSpawn(backend, u).child.argv[1] == u && RunSpawn(backend, u, c).child.argv[1] == u;
      assert RunSpawn(backend, u, c).child.argv[4] == c;
    } else {
      assert ProbeSpawn(backend, u).child.argv[2] == u && RunSpawn(backend, u, c).child.argv[2] == u;
      assert RunSpawn(backend, u, c).child.argv[8] == c;
    }
  }

  /** `check_password_sudo` or `check_password_su`, as configured. The
      probe child it starts is the one for `username`. */
  function CheckPassword(backend: Backend, os: ProbeOs, username: string, password: CString): (r: Run<ErrorCode>)
    requires CredentialFits(backend, password)
    ensures !r.finish.Unfinished?
    ensures r.finish.Done? ==> r.finish.value in {Success, WrongUserOrPasswd, SignaledChild}
    ensures r.finish.Done? ==> Forks(backend, os.pipeOk, os.forkOk)
    ensures Forks(backend, os.pipeOk, os.forkOk) ==> ProbeSpawn(backend, username) in r.effects
    ensures r.finish.Done? ==> CredentialWrite(backend, password) in r.effects
  {
    match backend
    case UseSu(p, path) => SuBackend.CheckPasswordSu(p, path, os, username, password)
    case UseSudo(path) => SudoBackend.CheckPasswordSudo(path, os, username, password)
  }

  /** `run_sudo` or `run_su`, as configured. Whichever runs, a run that
      returns leaves the terminal in the state it captured, having installed
      the raw state `mode` derives in between, and never touches a standard
      input that is no terminal. */
  function RunCommand(mode: RawMode, backend: Backend, os: RunOs, username: string, password: CString,
                      command: string): (r: Run<()>)
    requires CredentialFits(backend, password)
    ensures r.finish.Done? && os.capture.Captured? ==>
              TerminalWrites(r.effects) == [RawState(mode, os.capture.state), os.capture.state]
    ensures os.capture.NotATty? ==> TerminalWrites(r.effects) == []
    ensures r.finish.Done? ==> Forks(backend, os.pipeOk, os.forkOk)
    ensures Forks(backend, os.pipeOk, os.forkOk) ==> RunSpawn(backend, username, command) in r.effects
    ensures r.finish.Done? ==> CredentialWrite(backend, password) in r.effects
  {
    match backend
    case UseSu(p, path) =>
      var r := SuBackend.RunSu(mode, p, path, os, username, password, command);
      SuBackend.RunSuAbortLeavesTerminal(mode, p, path, os, username, password, command);
      assert r.finish.Done? ==> CredentialWrite(backend, password) in r.effects by {
        if r.finish.Done? {
          SuBackend.RunSuPasswordFirst(mode, p, path, os, username, password, command);
        }
      }
      assert os.forkOk ==> RunSpawn(backend, username, command) in r.effects by {
        if os.forkOk {
          SuBackend.RunSuSpawnsFirst(mode, p, path, os, username, password, command);
        }
      }
      if r.finish.Done? then
        SuBackend.RunSuRestoresTerminal(mode, p, path, os, username, password, command);
        r
      else r
    case UseSudo(path) =>
      var r := SudoBackend.RunSudo(mode, path, os, username, password, command);
      SudoBackend.RunSudoAbortLeavesTerminal(mode, path, os, username, password, command);
      assert os.pipeOk && os.forkOk ==>
               RunSpawn(backend, username, command) in r.effects && CredentialWrite(backend, password) in r.effects by {
        if os.pipeOk && os.forkOk {
          SudoBackend.RunSudoFeedsPipeFirst(mode, path, os, username, password, command);
          assert r.effects[1] == r.effects[..5][1];
          assert r.effects[3] == r.effects[..5][3];
        }
      }
      if r.finish.Done? then
        SudoBackend.RunSudoRestoresTerminal(mode, path, os, username, password, command);
        r
      else r
  }

  /** On a console at 38400 baud with the receiver on, the raw state a
      returning run installs has the receiver off and the line speed 0 as
      written, and keeps both when corrected; the restore then puts the
      console back. */
  lemma RunCommandOnConsole(mode: RawMode, backend: Backend, os: RunOs, username: string,
                            password: CString, command: string)
    requires CredentialFits(backend, password) && os.capture == Captured(Console)
    ensures var r := RunCommand(mode, backend, os, username, password, command);
            var w := TerminalWrites(r.effects);
            r.finish.Done? ==>
            && |w| == 2 && w[1] == Console
            && w[0].cflag & CREAD == (if mode.AsWritten? then 0 else CREAD)
            && w[0].cflag & B38400 == (if mode.AsWritten? then 0 else B38400)
  {
  }

  /** `memset(password, '\0', strlen(password))`: the password's bytes,
      overwritten with zeros. */
  function Wipe(password: CString): (z: seq<byte>)
    ensures |z| == |password| && AllZero(z)
  {
    seq(|password|, _ => NUL)
  }

  /** One answer to the dialog: Cancel (or closing it), or OK with the text
      of the user name field, the password, and the operating system's side
      of the probe and of the run that may follow it. */
  datatype Response =
    | Cancel
    | Ok(userText: string, password: CString, probe: ProbeOs, run: RunOs)

  /** Every password answered fits the configured backend's line buffer. */
  predicate CredentialsFit(backend: Backend, responses: seq<Response>)
  {
    forall k :: 0 <= k < |responses| && responses[k].Ok? ==> CredentialFits(backend, responses[k].password)
  }

  /** What one OK does: the user checked, the password used, the probe, the
      run that followed a successful probe, and the bytes left in the
      password's memory if the process got as far as wiping it. */
  datatype Attempt = Attempt(username: string, password: CString, check: Run<ErrorCode>,
                             run: Option<Run<()>>, wiped: Option<seq<byte>>)

  /** True when the process survived the attempt and went on. */
  predicate Survived(a: Attempt)
  {
    a.check.finish.Done? && (a.run.Some? ==> a.run.value.finish.Done?)
  }

  /** True when the attempt's probe was refused (the error dialog follows). */
  predicate Failed(a: Attempt)
  {
    a.check.finish.Done? && a.check.finish.value != Success
  }

  /** The body of the retry loop after OK: take the user name (from the
      field unless one was given), probe, run the command if the probe
      succeeded, then wipe the password. A backend that ends the process
      leaves the password where it was. */
  function TryOnce(mode: RawMode, backend: Backend, explicitUser: Option<string>, commandLine: string,
                   userText: string, password: CString, probe: ProbeOs, run: RunOs): (a: Attempt)
    requires CredentialFits(backend, password)
    ensures explicitUser.Some? ==> a.username == explicitUser.value
    ensures explicitUser.None? ==> a.username == userText
    ensures a.password == password
    ensures a.run.Some? <==> a.check.finish == Done(Success)
    ensures a.wiped.Some? <==> Survived(a)
    ensures a.wiped.Some? ==> |a.wiped.value| == |password| && AllZero(a.wiped.value)
    ensures Failed(a) ==> Survived(a)
    ensures Forks(backend, probe.pipeOk, probe.forkOk) ==> ProbeSpawn(backend, a.username) in a.check.effects
    ensures a.run.Some? && Forks(backend, run.pipeOk, run.forkOk) ==>
              RunSpawn(backend, a.username, commandLine) in a.run.value.effects
    ensures a.check.finish.Done? ==> ProbeSpawn(backend, a.username) in a.check.effects
    ensures a.run.Some? && a.run.value.finish.Done? ==> RunSpawn(backend, a.username, commandLine) in a.run.value.effects
    ensures a.check.finish.Done? ==> CredentialWrite(backend, a.password) in a.check.effects
    ensures a.run.Some? && a.run.value.finish.Done? ==> CredentialWrite(backend, a.password) in a.run.value.effects
  {
    var username := if explicitUser.Some? then explicitUser.value else userText;
    var check := CheckPassword(backend, probe, username, password);
    var ran := if check.finish == Done(Success)
               then Some(RunCommand(mode, backend, run, username, password, commandLine))
               else None;
    var a := Attempt(username, password, check, ran, None);
    if Survived(a) then a.(wiped := Some(Wipe(password))) else a
  }

  /** The attempt each answer leads to if the loop reads it: none for
      Cancel. */
  function Answers(mode: RawMode, backend: Backend, explicitUser: Option<string>, commandLine: string,
                   responses: seq<Response>): (answers: seq<Option<Attempt>>)
    requires CredentialsFit(backend, responses)
    ensures |answers| == |responses|
    ensures forall j :: 0 <= j < |responses| ==> (answers[j].None? <==> responses[j].Cancel?)
  {
    seq(|responses|, j requires 0 <= j < |responses| =>
      match responses[j]
      case Cancel => None
      case Ok(userText, password, probe, run) =>
        Some(TryOnce(mode, backend, explicitUser, commandLine, userText, password, probe, run)))
  }

  /** How the retry loop ends: Cancel, a command that was run, three
      refused passwords, the process ending inside a backend, or answers
      running out before any of these. */
  datatype Exit = Cancelled | Succeeded | GaveUp | Terminated(why: Fatal) | Waiting

  /** The attempts in order, how the loop ended, the error dialogs shown,
      and the final value of the counter: three once a command has run or
      the third refusal was counted, otherwise the refusals counted. */
  datatype Outcome = Outcome(attempts: seq<Attempt>, exit: Exit, shown: seq<ErrorCode>, counter: nat)

  /** How the loop leaves after an attempt that was not a refusal. */
  function ExitAfter(a: Attempt): Exit
  {
    match a.check.finish
    case Aborted(why) => Terminated(why)
    case Unfinished => Waiting
    case Done(_) =>
      if a.run.None? then Waiting
      else match a.run.value.finish
        case Done(_) => Succeeded
        case Aborted(why) => Terminated(why)
        case Unfinished => Waiting
  }

  /** The retry loop from its `k`-th answer with counter value `counter`.
      A refusal shows the error and counts; a command that ran and returned
      sets the counter to three; Cancel leaves the loop. The loop goes on
      exactly while the counter stays below three. */
  function RetryFrom(answers: seq<Option<Attempt>>, k: nat, counter: nat): (o: Outcome)
    requires counter < 3 && k <= |answers|
    decreases |answers| - k
    ensures counter <= o.counter <= 3
    ensures |o.attempts| <= 3 - counter
    ensures k + |o.attempts| <= |answers|
    ensures o.exit == GaveUp <==> |o.shown| == 3 - counter
    ensures o.counter == 3 <==> o.exit == GaveUp || o.exit == Succeeded
    ensures o.counter < 3 ==> o.counter == counter + |o.shown|
    ensures |o.shown| <= |o.attempts|
  {
    if k == |answers| then Outcome([], Waiting, [], counter)
    else if answers[k].None? then Outcome([], Cancelled, [], counter)
    else
      var a := answers[k].value;
      if !Failed(a) then
        var exit := ExitAfter(a);
        Outcome([a], exit, [], if exit == Succeeded then 3 else counter)
      else if counter + 1 == 3 then Outcome([a], GaveUp, [a.check.finish.value], 3)
      else
        var rest := RetryFrom(answers, k + 1, counter + 1);
        Outcome([a] + rest.attempts, rest.exit, [a.check.finish.value] + rest.shown, rest.counter)
  }

  /** The loop `main` runs over the dialog's answers: at most three
      attempts, one per OK answer read, each probing the `-u` user (else the
      typed one) with the typed password; every attempt but the last was
      refused, ran nothing and had its password zeroed; the command runs at
      most once, and the loop succeeds exactly when that run returned; each
      refusal is shown with its code, and the loop gives up exactly after
      three. */
  function RetryLoop(mode: RawMode, backend: Backend, explicitUser: Option<string>, commandLine: string,
                     responses: seq<Response>): (o: Outcome)
    requires CredentialsFit(backend, responses)
    ensures |o.attempts| <= 3 && |o.attempts| <= |responses|
    ensures o.exit == GaveUp <==> |o.shown| == 3
    ensures o.counter == 3 <==> o.exit == GaveUp || o.exit == Succeeded
    ensures forall j :: 0 <= j < |o.attempts| ==>
              && responses[j].Ok?
              && o.attempts[j].password == responses[j].password
              && o.attempts[j].username == TargetOf(explicitUser, responses[j].userText)
              && CredentialFits(backend, responses[j].password)
              && (o.attempts[j].check.finish.Done? ==>
                    && ProbeSpawn(backend, o.attempts[j].username) in o.attempts[j].check.effects
                    && CredentialWrite(backend, responses[j].password) in o.attempts[j].check.effects)
              && (o.attempts[j].run.Some? && o.attempts[j].run.value.finish.Done? ==>
                    && RunSpawn(backend, o.attempts[j].username, commandLine) in o.attempts[j].run.value.effects
                    && CredentialWrite(backend, responses[j].password) in o.attempts[j].run.value.effects)
    ensures forall j :: 0 <= j < |o.attempts| - 1 ==>
              && Failed(o.attempts[j]) && o.attempts[j].run.None?
              && o.attempts[j].wiped == Some(Wipe(o.attempts[j].password))
    ensures o.exit == Succeeded <==>
              |o.attempts| > 0 && o.attempts[|o.attempts| - 1].run.Some? &&
              o.attempts[|o.attempts| - 1].run.value.finish.Done?
    ensures |o.shown| <= |o.attempts|
    ensures forall j :: 0 <= j < |o.shown| ==>
              Failed(o.attempts[j]) && o.shown[j] == o.attempts[j].check.finish.value
  {
    var answers := Answers(mode, backend, explicitUser, commandLine, responses);
    AnswersAreRecords(mode, backend, explicitUser, commandLine, responses);
    RetryLoopAttempts(backend, commandLine, explicitUser, responses, answers);
    RetryLoopOutcome(backend, commandLine, answers);
    RetryFrom(answers, 0, 0)
  }

  /** The user an OK answer is checked as: the one given with `-u`, else
      the one typed into the dialog. */
  function TargetOf(explicitUser: Option<string>, userText: string): string
  {
    if explicitUser.Some? then explicitUser.value else userText
  }

  /** The attempts are made for consecutive answers, all of them OK, and
      the loop leaves on Cancel exactly when it reads a Cancel after
      refusals only. */
  lemma {:induction false} RetryFollowsAnswers(answers: seq<Option<Attempt>>, k: nat, counter: nat)
    requires counter < 3 && k <= |answers|
    decreases |answers| - k
    ensures var o := RetryFrom(answers, k, counter);
            && (forall j :: 0 <= j < |o.attempts| ==> answers[k + j] == Some(o.attempts[j]))
            && (o.exit == Cancelled <==>
                  && o.counter < 3 && o.counter - counter == |o.attempts|
                  && k + |o.attempts| < |answers| && answers[k + |o.attempts|].None?)
  {
    if k < |answers| && answers[k].Some? && Failed(answers[k].value) && counter + 1 < 3 {
      RetryFollowsAnswers(answers, k + 1, counter + 1);
    }
  }

  /** Every attempt but the last was refused and ran nothing; the command
      runs at most once, in the last attempt, and the loop ends with
      success exactly when that run returned. */
  lemma {:induction false} RetryRunsCommandAtMostOnce(answers: seq<Option<Attempt>>, k: nat, counter: nat)
    requires counter < 3 && k <= |answers|
    requires forall j :: k <= j < |answers| && answers[j].Some? ==>
               (answers[j].value.run.Some? <==> answers[j].value.check.finish == Done(Success))
    decreases |answers| - k
    ensures var o := RetryFrom(answers, k, counter);
            && (forall j :: 0 <= j < |o.attempts| - 1 ==> Failed(o.attempts[j]) && o.attempts[j].run.None?)
            && (o.exit == Succeeded <==>
                  |o.attempts| > 0 && o.attempts[|o.attempts| - 1].run.Some? &&
                  o.attempts[|o.attempts| - 1].run.value.finish.Done?)
            && (o.exit == GaveUp ==> |o.attempts| == 3 - counter && Failed(o.attempts[|o.attempts| - 1]))
  {
    if k < |answers| && answers[k].Some? && Failed(answers[k].value) && counter + 1 < 3 {
      RetryRunsCommandAtMostOnce(answers, k + 1, counter + 1);
    }
  }

  /** Each refusal is shown with the code the backend returned, in order,
      and the i-th error dialog belongs to the i-th attempt. */
  lemma {:induction false} RetryShowsEachRefusal(answers: seq<Option<Attempt>>, k: nat, counter: nat)
    requires counter < 3 && k <= |answers|
    decreases |answers| - k
    ensures var o := RetryFrom(answers, k, counter);
            && |o.shown| <= |o.attempts|
            && forall j :: 0 <= j < |o.shown| ==>
                 Failed(o.attempts[j]) && o.shown[j] == o.attempts[j].check.finish.value
  {
    if k < |answers| && answers[k].Some? && Failed(answers[k].value) && counter + 1 < 3 {
      RetryShowsEachRefusal(answers, k + 1, counter + 1);
    }
  }

  /** After every OK the password's bytes are zeroed, whatever the probe
      said, unless the process ended inside the backend first. */
  lemma {:induction false} RetryWipesPasswords(answers: seq<Option<Attempt>>, k: nat, counter: nat)
    requires counter < 3 && k <= |answers|
    requires forall j :: k <= j < |answers| && answers[j].Some? ==>
               (answers[j].value.wiped.Some? <==> Survived(answers[j].value)) &&
               (answers[j].value.wiped.Some? ==> answers[j].value.wiped == Some(Wipe(answers[j].value.password))) &&
               (Failed(answers[j].value) ==> Survived(answers[j].value))
    decreases |answers| - k
    ensures var o := RetryFrom(answers, k, counter);
            && (forall j :: 0 <= j < |o.attempts| && (j < |o.attempts| - 1 || o.exit in {Cancelled, Succeeded, GaveUp}) ==>
                  o.attempts[j].wiped == Some(Wipe(o.attempts[j].password)))
            && (o.exit.Terminated? ==> |o.attempts| > 0 && o.attempts[|o.attempts| - 1].wiped.None?)
  {
    if k < |answers| && answers[k].Some? && Failed(answers[k].value) && counter + 1 < 3 {
      RetryWipesPasswords(answers, k + 1, counter + 1);
    }
  }

  /** What every attempt record satisfies by construction: among others,
      a probe that returned started the probe child for the attempt's user
      and handed it the attempt's password, and a run that returned did the
      same for the child running `commandLine` as that user. */
  predicate WellFormed(backend: Backend, commandLine: string, a: Attempt)
  {
    && CredentialFits(backend, a.password)
    && (a.check.finish.Done? ==>
          ProbeSpawn(backend, a.username) in a.check.effects && CredentialWrite(backend, a.password) in a.check.effects)
    && (a.run.Some? && a.run.value.finish.Done? ==>
          && RunSpawn(backend, a.username, commandLine) in a.run.value.effects
          && CredentialWrite(backend, a.password) in a.run.value.effects)
    && (a.run.Some? <==> a.check.finish == Done(Success))
    && (a.wiped.Some? <==> Survived(a))
    && (a.wiped.Some? ==> a.wiped == Some(Wipe(a.password)))
    && (Failed(a) ==> Survived(a))
  }

  /** `answers` holds, for each answer, no attempt for Cancel and for OK a
      well-formed attempt that checks the user given with `-u`, else the
      one typed, with the password typed. */
  predicate Records(backend: Backend, commandLine: string, explicitUser: Option<string>, responses: seq<Response>,
                    answers: seq<Option<Attempt>>)
  {
    && |answers| == |responses|
    && forall j :: 0 <= j < |answers| ==>
         && (answers[j].None? <==> responses[j].Cancel?)
         && (answers[j].Some? ==>
               && WellFormed(backend, commandLine, answers[j].value)
               && answers[j].value.password == responses[j].password
               && (explicitUser.Some? ==> answers[j].value.username == explicitUser.value)
               && (explicitUser.None? ==> answers[j].value.username == responses[j].userText))
  }

  lemma AnswerWellFormed(mode: RawMode, backend: Backend, explicitUser: Option<string>, commandLine: string,
                         responses: seq<Response>, j: nat)
    requires CredentialsFit(backend, responses) && j < |responses| && responses[j].Ok?
    ensures var a := Answers(mode, backend, explicitUser, commandLine, responses)[j];
            && a.Some? && WellFormed(backend, commandLine, a.value)
            && a.value.password == responses[j].password
            && (explicitUser.Some? ==> a.value.username == explicitUser.value)
            && (explicitUser.None? ==> a.value.username == responses[j].userText)
  {
    var r := responses[j];
    var a := TryOnce(mode, backend, explicitUser, commandLine, r.userText, r.password, r.probe, r.run);
    assert Answers(mode, backend, explicitUser, commandLine, responses)[j] == Some(a);
  }

  /** The loop's attempts are the records of the dialog's answers. */
  lemma AnswersAreRecords(mode: RawMode, backend: Backend, explicitUser: Option<string>, commandLine: string,
                          responses: seq<Response>)
    requires CredentialsFit(backend, responses)
    ensures Records(backend, commandLine, explicitUser, responses,
                    Answers(mode, backend, explicitUser, commandLine, responses))
  {
    var answers := Answers(mode, backend, explicitUser, commandLine, responses);
    forall j | 0 <= j < |answers| && answers[j].Some?
      ensures WellFormed(backend, commandLine, answers[j].value) && answers[j].value.password == responses[j].password
      ensures explicitUser.Some? ==> answers[j].value.username == explicitUser.value
      ensures explicitUser.None? ==> answers[j].value.username == responses[j].userText
    {
      AnswerWellFormed(mode, backend, explicitUser, commandLine, responses, j);
    }
  }

  /** The retry loop over the records of the dialog's answers: at most
      three attempts, one per OK answer read, each checking the user given
      with `-u` or else the one typed, with the password typed; the loop
      gives up exactly after three refusals. */
  lemma RetryLoopAttempts(backend: Backend, commandLine: string, explicitUser: Option<string>,
                          responses: seq<Response>, answers: seq<Option<Attempt>>)
    requires Records(backend, commandLine, explicitUser, responses, answers)
    ensures var o := RetryFrom(answers, 0, 0);
            && |o.attempts| <= 3
            && (o.exit == GaveUp <==> |o.shown| == 3)
            && (forall j :: 0 <= j < |o.attempts| ==>
                  && responses[j].Ok?
                  && o.attempts[j].password == responses[j].password
                  && (explicitUser.Some? ==> o.attempts[j].username == explicitUser.value)
                  && (explicitUser.None? ==> o.attempts[j].username == responses[j].userText)
                  && CredentialFits(backend, responses[j].password)
                  && (o.attempts[j].check.finish.Done? ==>
                        && ProbeSpawn(backend, o.attempts[j].username) in o.attempts[j].check.effects
                        && CredentialWrite(backend, responses[j].password) in o.attempts[j].check.effects)
                  && (o.attempts[j].run.Some? && o.attempts[j].run.value.finish.Done? ==>
                        && RunSpawn(backend, o.attempts[j].username, commandLine) in o.attempts[j].run.value.effects
                        && CredentialWrite(backend, responses[j].password) in o.attempts[j].run.value.effects))
  {
    var o := RetryFrom(answers, 0, 0);
    RetryFollowsAnswers(answers, 0, 0);
    forall j | 0 <= j < |o.attempts|
      ensures responses[j].Ok? && o.attempts[j].password == responses[j].password
    {
      assert answers[0 + j] == Some(o.attempts[j]);
    }
  }

  /** Over well-formed records: every attempt but the last was refused, ran
      nothing and had its password zeroed; only the last may run the
      command; the loop ends with success exactly when that run returned;
      each refusal is shown with its own code. */
  lemma RetryLoopOutcome(backend: Backend, commandLine: string, answers: seq<Option<Attempt>>)
    requires forall j :: 0 <= j < |answers| && answers[j].Some? ==> WellFormed(backend, commandLine, answers[j].value)
    ensures var o := RetryFrom(answers, 0, 0);
            && (forall j :: 0 <= j < |o.attempts| - 1 ==>
                  && Failed(o.attempts[j]) && o.attempts[j].run.None?
                  && o.attempts[j].wiped == Some(Wipe(o.attempts[j].password)))
            && (o.exit == Succeeded <==>
                  |o.attempts| > 0 && o.attempts[|o.attempts| - 1].run.Some? &&
                  o.attempts[|o.attempts| - 1].run.value.finish.Done?)
            && (forall j :: 0 <= j < |o.shown| ==>
                  Failed(o.attempts[j]) && o.shown[j] == o.attempts[j].check.finish.value)
  {
    RetryRunsCommandAtMostOnce(answers, 0, 0);
    RetryShowsEachRefusal(answers, 0, 0);
    RetryWipesPasswords(answers, 0, 0);
  }

  /** A probe child killed by a signal makes the check return the bare -1,
      which the loop passes to the error dialog as an index into a message
      table that has no entry for it. */
  lemma SignaledProbeReachesErrorTable(sudoPath: string, userText: string, run: RunOs, commandLine: string)
    ensures var probe := ProbeOs(true, true, _ => Quiet, Quiet, Reaped(Encode(Killed(9, false))), Quiet);
            var o := RetryLoop(AsWritten, UseSudo(sudoPath), None, commandLine, [Ok(userText, [], probe, run)]);
            o.shown == [SignaledChild] && !o.shown[0].HasMessage() && o.exit == Waiting
  {
    var probe := ProbeOs(true, true, _ => Quiet, Quiet, Reaped(Encode(Killed(9, false))), Quiet);
    var responses := [Ok(userText, [], probe, run)];
    var answers := Answers(AsWritten, UseSudo(sudoPath), None, commandLine, responses);
    MacrosDecode(Killed(9, false));
    assert Classify(StatusAfterWait(probe.wait)) == SignaledChild;
    var a := TryOnce(AsWritten, UseSudo(sudoPath), None, commandLine, userText, [], probe, run);
    assert a.check == SudoBackend.CheckPasswordSudo(sudoPath, probe, userText, []);
    assert a.check.finish == Done(SignaledChild);
    assert answers[0] == Some(a);
    assert RetryFrom(answers, 1, 1).shown == [];
  }
}

=== FILE: errors.dfy ===
/** The result codes the program passes between `main`, the backends and the
    error dialog. The header that assigns them numbers is not part of this
    model, so they are named rather than numbered. */
module Errors {

  datatype ErrorCode =
    | Success
    | WrongUserOrPasswd
    | MissingUserAndCommand
    | MissingMessageAndCommand
    | MissingCommand
    | InvalidCommand
    | PermissionDenied
      /** The bare -1 both password checks return for a signaled child. */
    | SignaledChild
  {
    /** True when the code names an entry of the message table the error
        dialog indexes; the bare -1 names none. */
    predicate HasMessage()
    {
      !SignaledChild?
    }
  }
}

=== FILE: options.dfy ===
/** The option scanner at the top of `main`. It walks the arguments from the
    first one after the program name and stops at the first that does not
    start with a dash; that one is the command. `-u`/`--user` and
    `-m`/`--message` take the next argument as their value, `-h`/`--help`
    and `-v`/`--version` end the program, and any other dash argument is
    stepped over. */
module Options {
  import opened Base
  import opened Errors

  predicate IsHelpFlag(a: string)    { a == "--help" || a == "-h" }
  predicate IsVersionFlag(a: string) { a == "--version" || a == "-v" }
  predicate IsUserFlag(a: string)    { a == "--user" || a == "-u" }
  predicate IsMessageFlag(a: string) { a == "--message" || a == "-m" }

  /** A dash argument the scanner does not recognise. */
  predicate IsUnknownOption(a: string)
  {
    StartsWithDash(a) && !IsHelpFlag(a) && !IsVersionFlag(a) && !IsUserFlag(a) && !IsMessageFlag(a)
  }

  /** What scanning the arguments decides: the help or version text, one of
      the three scanning errors, or the user and message given (if any)
      together with the index of the command argument. */
  datatype Scanning =
    | AskedHelp
    | AskedVersion
    | ScanError(code: ErrorCode)
    | Scanned(user: Option<string>, message: Option<string>, command: nat)

  /** One iteration of the scanning loop, entered with index `i`. The index
      `|args|` is where `argv` holds its terminating NULL. */
  function ScanFrom(args: seq<string>, i: nat, user: Option<string>, message: Option<string>): (r: Scanning)
    requires 1 <= i <= |args|
    decreases |args| - i, 1
    ensures r.Scanned? ==> i <= r.command < |args| && !StartsWithDash(args[r.command])
    ensures r.Scanned? && user.Some? ==> r.user.Some?
    ensures r.Scanned? && message.Some? ==> r.message.Some?
    ensures r.ScanError? ==> r.code in {MissingUserAndCommand, MissingMessageAndCommand, MissingCommand}
  {
    if i == |args| then ScanError(MissingCommand)
    else if !StartsWithDash(args[i]) then Scanned(user, message, i)
    else if IsHelpFlag(args[i]) then AskedHelp
    else if IsVersionFlag(args[i]) then AskedVersion
    else if IsUserFlag(args[i]) then
      if i + 1 == |args| then ScanError(MissingUserAndCommand)
      else MessageCheck(args, i + 1, Some(args[i + 1]), message)
    else MessageCheck(args, i, user, message)
  }

  /** The second half of an iteration: the argument at `j` (which is the
      user name when `-u` was just taken) is compared with the message
      flags, and the index then moves past it. */
  function MessageCheck(args: seq<string>, j: nat, user: Option<string>, message: Option<string>): (r: Scanning)
    requires 1 <= j < |args|
    decreases |args| - j, 0
    ensures r.Scanned? ==> j < r.command < |args| && !StartsWithDash(args[r.command])
    ensures r.Scanned? && user.Some? ==> r.user.Some?
    ensures r.Scanned? && message.Some? ==> r.message.Some?
    ensures r.ScanError? ==> r.code in {MissingUserAndCommand, MissingMessageAndCommand, MissingCommand}
  {
    if IsMessageFlag(args[j]) then
      if j + 1 == |args| then ScanError(MissingMessageAndCommand)
      else ScanFrom(args, j + 2, user, Some(args[j + 1]))
    else ScanFrom(args, j + 1, user, message)
  }

  /** The whole scan; `args[0]` is the program name. */
  function Scan(args: seq<string>): Scanning
    requires 1 <= |args|
  {
    ScanFrom(args, 1, None, None)
  }

  /** The scanning loop as `main` writes it, with early returns where the
      program exits. */
  method ScanArguments(args: seq<string>) returns (r: Scanning)
    requires 1 <= |args|
    ensures r == Scan(args)
  {
    var i := 1;
    var user: Option<string> := None;
    var message: Option<string> := None;
    while i < |args|
      invariant 1 <= i <= |args|
      invariant ScanFrom(args, i, user, message) == Scan(args)
      decreases |args| - i
    {
      if !StartsWithDash(args[i]) {
        break;
      }
      if IsHelpFlag(args[i]) {
        return AskedHelp;
      }
      if IsVersionFlag(args[i]) {
        return AskedVersion;
      }
      if IsUserFlag(args[i]) {
        if i + 1 == |args| {
          return ScanError(MissingUserAndCommand);
        }
        user := Some(args[i + 1]);
        i := i + 1;
      }
      assert MessageCheck(args, i, user, message) == Scan(args);
      if IsMessageFlag(args[i]) {
        if i + 1 == |args| {
          return ScanError(MissingMessageAndCommand);
        }
        message := Some(args[i + 1]);
        i := i + 1;
      }
      i := i + 1;
    }
    if i == |args| {
      return ScanError(MissingCommand);
    }
    r := Scanned(user, message, i);
  }

  /** Unrecognised dash arguments are stepped over without error. */
  lemma {:induction false} UnknownOptionsSkipped(args: seq<string>, i: nat, k: nat,
                                                 user: Option<string>, message: Option<string>)
    requires 1 <= i <= k <= |args|
    requires forall j :: i <= j < k ==> IsUnknownOption(args[j])
    ensures ScanFrom(args, i, user, message) == ScanFrom(args, k, user, message)
    decreases k - i
  {
    if i < k {
      UnknownOptionsSkipped(args, i + 1, k, user, message);
    }
  }

  /** When nothing before it is a recognised option, the command is the
      first argument not starting with a dash, and running out of arguments
      first is exactly the missing-command error. */
  lemma CommandIsFirstPlainArgument(args: seq<string>, k: nat)
    requires 1 <= k <= |args|
    requires forall j :: 1 <= j < k ==> IsUnknownOption(args[j])
    requires k == |args| || !StartsWithDash(args[k])
    ensures Scan(args) == if k == |args| then ScanError(MissingCommand) else Scanned(None, None, k)
  {
    UnknownOptionsSkipped(args, 1, k, None, None);
  }

  /** The scan stops at the first argument without a dash that is no
      option's value: every argument before the command that does not start
      with a dash directly follows a `-u` or `-m` flag. */
  lemma {:induction false} PlainArgumentsBeforeCommandAreValues(args: seq<string>, i: nat,
                                                               user: Option<string>, message: Option<string>)
    requires 1 <= i <= |args|
    decreases |args| - i, 1
    ensures var r := ScanFrom(args, i, user, message);
            r.Scanned? ==> forall j :: i <= j < r.command && !StartsWithDash(args[j]) ==>
                             i < j && (IsUserFlag(args[j - 1]) || IsMessageFlag(args[j - 1]))
  {
    if i < |args| && StartsWithDash(args[i]) && !IsHelpFlag(args[i]) && !IsVersionFlag(args[i]) {
      if IsUserFlag(args[i]) {
        if i + 1 < |args| {
          PlainValuesInMessageCheck(args, i + 1, Some(args[i + 1]), message);
        }
      } else {
        PlainValuesInMessageCheck(args, i, user, message);
      }
    }
  }

  lemma {:induction false} PlainValuesInMessageCheck(args: seq<string>, j: nat,
                                                     user: Option<string>, message: Option<string>)
    requires 1 <= j < |args|
    decreases |args| - j, 0
    ensures var r := MessageCheck(args, j, user, message);
            r.Scanned? ==> forall k :: j < k < r.command && !StartsWithDash(args[k]) ==>
                             IsUserFlag(args[k - 1]) || IsMessageFlag(args[k - 1])
  {
    if IsMessageFlag(args[j]) {
      if j + 1 < |args| {
        PlainArgumentsBeforeCommandAreValues(args, j + 2, user, Some(args[j + 1]));
      }
    } else {
      PlainArgumentsBeforeCommandAreValues(args, j + 1, user, message);
    }
  }

  /** `-u` takes the next argument as the user name, whatever it looks
      like, and scanning resumes after it; with no next argument the scan
      fails with the missing-user error. */
  lemma UserFlagTakesValue(args: seq<string>, i: nat, user: Option<string>, message: Option<string>)
    requires 1 <= i < |args| && IsUserFlag(args[i])
    ensures i + 1 == |args| ==> ScanFrom(args, i, user, message) == ScanError(MissingUserAndCommand)
    ensures i + 1 < |args| && !IsMessageFlag(args[i + 1]) ==>
              ScanFrom(args, i, user, message) == ScanFrom(args, i + 2, Some(args[i + 1]), message)
  {
  }

  /** `-m` takes the next argument as the message and scanning resumes
      after it; with no next argument the scan fails with the
      missing-message error. */
  lemma MessageFlagTakesValue(args: seq<string>, i: nat, user: Option<string>, message: Option<string>)
    requires 1 <= i < |args| && IsMessageFlag(args[i])
    ensures i + 1 == |args| ==> ScanFrom(args, i, user, message) == ScanError(MissingMessageAndCommand)
    ensures i + 1 < |args| ==>
              ScanFrom(args, i, user, message) == ScanFrom(args, i + 2, user, Some(args[i + 1]))
  {
  }

  /** A user name spelled like the message flag is taken as the user name
      and then also acts as the message flag in the same iteration:
      `-u -m text` sets the user to "-m" and the message to "text". */
  lemma UserValueAlsoReadAsMessageFlag(args: seq<string>, i: nat, user: Option<string>,
                                       message: Option<string>)
    requires 1 <= i && i + 1 < |args| && IsUserFlag(args[i]) && IsMessageFlag(args[i + 1])
    ensures i + 2 == |args| ==> ScanFrom(args, i, user, message) == ScanError(MissingMessageAndCommand)
    ensures i + 2 < |args| ==>
              ScanFrom(args, i, user, message) == ScanFrom(args, i + 3, Some(args[i + 1]), Some(args[i + 2]))
  {
  }

  /** A help or version flag reached by the scan ends it, whatever follows;
      a flag consumed as a value does not. */
  lemma HelpAndVersionEndScan(args: seq<string>, i: nat, user: Option<string>, message: Option<string>)
    requires 1 <= i < |args|
    ensures IsHelpFlag(args[i]) ==> ScanFrom(args, i, user, message) == AskedHelp
    ensures IsVersionFlag(args[i]) ==> ScanFrom(args, i, user, message) == AskedVersion
    ensures i + 1 < |args| && IsUserFlag(args[i]) && (IsHelpFlag(args[i + 1]) || IsVersionFlag(args[i + 1])) ==>
              ScanFrom(args, i, user, message) == ScanFrom(args, i + 2, Some(args[i + 1]), message)
  {
  }
}

=== FILE: process.dfy ===
/** The process-level actions the backends perform, recorded in order as
    effects, and the results the operating system supplies to them. Every
    system call is replaced by the abstract result it returned. */
module Process {
  import opened Base
  import opened Terminal
  import opened WaitStatus
  import opened Relay

  /** Where a child's standard stream is connected. */
  datatype Channel = PtySlave | PipeReadEnd | DevNull | Inherited

  /** A spawned elevation program: its argument vector, its three standard
      streams, whether it became a session leader and whether it ignores
      the hang-up signal. */
  datatype Child = Child(argv: seq<string>, stdin: Channel, stdout: Channel, stderr: Channel,
                         newSession: bool, ignoresHangup: bool)

  datatype Effect =
    | OpenPipe
    | Spawn(child: Child)
      /** The read that consumes the password prompt; its bytes are dropped. */
    | ReadPrompt
    | PtyWrite(bytes: seq<byte>)
      /** A read of whatever is left on the pty; its bytes are dropped. */
    | Drain
    | KillChild
    | ClosePipeRead
    | PipeWrite(bytes: seq<byte>)
    | ClosePipeWrite
      /** The blocking `waitpid` for the probe child. */
    | Reap
    | SetTerminal(state: Termios)
    | Relayed(relay: RelayResult)
    | ClosePty

  /** Why the process terminated through `err(1, ...)`. */
  datatype Fatal = PipeFailed | ForkFailed | SelectBroke | NoPromptGiven | CaptureBroke | SetAttrBroke

  /** How a backend call finished: returned a value, terminated the whole
      process, or had not finished when the given events ran out. */
  datatype Finish<T> = Done(value: T) | Aborted(why: Fatal) | Unfinished

  /** The effects of a backend call, in order, and how it finished. */
  datatype Run<T> = Run(effects: seq<Effect>, finish: Finish<T>)

  /** What a `select` on one descriptor with a short timeout reported. */
  datatype Poll = Quiet | Readable | PollFailed

  /** The operating system's side of one password probe. */
  datatype ProbeOs = ProbeOs(pipeOk: bool, forkOk: bool, prompt: nat -> Poll,
                             drainAfterWrite: Poll, wait: WaitResult, drainAfterWait: Poll)

  /** The operating system's side of one real run. */
  datatype RunOs = RunOs(pipeOk: bool, forkOk: bool, prompt: nat -> Poll, drainAfterWrite: Poll,
                         capture: Capture, rawSetOk: bool,
                         ticks: seq<Tick>, ptyReads: seq<ReadResult>, stdinReads: seq<ReadResult>,
                         finalDrain: Poll, restoreOk: bool)

  /** The states written to the terminal, in order. */
  function TerminalWrites(effects: seq<Effect>): (states: seq<Termios>)
    ensures |states| <= |effects|
  {
    if |effects| == 0 then []
    else (if effects[0].SetTerminal? then [effects[0].state] else []) + TerminalWrites(effects[1..])
  }

  /** No state is written to the terminal exactly when no effect sets it. */
  lemma {:induction false} NoTerminalWrites(effects: seq<Effect>)
    ensures TerminalWrites(effects) == [] <==> forall k :: 0 <= k < |effects| ==> !effects[k].SetTerminal?
  {
    if |effects| > 0 {
      NoTerminalWrites(effects[1..]);
      assert forall k :: 1 <= k < |effects| ==> effects[k] == effects[1..][k - 1];
    }
  }

  lemma TerminalWritesAppend(a: seq<Effect>, b: seq<Effect>)
    ensures TerminalWrites(a + b) == TerminalWrites(a) + TerminalWrites(b)
  {
    if |a| > 0 {
      assert (a + b)[1..] == a[1..] + b;
      TerminalWritesAppend(a[1..], b);
    } else {
      assert a + b == b;
    }
  }

  /** The same finish, for a call whose value type differs; only for calls
      that did not return. */
  function Propagate<T, U>(f: Finish<T>): (g: Finish<U>)
    requires !f.Done?
    ensures g.Aborted? <==> f.Aborted?
    ensures f.Aborted? ==> g.why == f.why
  {
    match f
    case Aborted(why) => Aborted(why)
    case Unfinished => Unfinished
  }

  /** `tcgetattr` on standard input, then `tty_raw` if it is a terminal,
      installing the state `mode` derives (see `RawState`). On success the
      value is the captured state to restore later, or `None` when standard
      input is not a terminal. */
  function EnterRaw(mode: RawMode, capture: Capture, setOk: bool): (r: Run<Option<Termios>>)
    ensures r.finish.Done? <==> capture.NotATty? || (capture.Captured? && setOk)
    ensures r.finish.Aborted? <==> !r.finish.Done?
    ensures capture.CaptureFailed? ==> r.finish == Aborted(CaptureBroke)
    ensures r.finish.Done? ==> (r.finish.value.Some? <==> capture.Captured?)
    ensures r.finish.Done? && capture.Captured? ==> r.finish.value == Some(capture.state)
    ensures TerminalWrites(r.effects) == if r.finish.Done? && capture.Captured? then [RawState(mode, capture.state)] else []
  {
    match capture
    case Captured(state) =>
      if setOk then Run([SetTerminal(RawState(mode, state))], Done(Some(state)))
      else Run([], Aborted(SetAttrBroke))
    case NotATty => Run([], Done(None))
    case CaptureFailed => Run([], Aborted(CaptureBroke))
  }

  /** Puts back the captured state, if there was one. */
  function Restore(saved: Option<Termios>, setOk: bool): (r: Run<()>)
    ensures r.finish.Done? <==> saved.None? || setOk
    ensures r.finish.Aborted? <==> !r.finish.Done?
    ensures TerminalWrites(r.effects) == if saved.Some? && setOk then [saved.value] else []
    ensures r.finish.Done? && saved.Some? ==> r.effects == [SetTerminal(saved.value)]
  {
    match saved
    case Some(state) => if setOk then Run([SetTerminal(state)], Done(())) else Run([], Aborted(SetAttrBroke))
    case None => Run([], Done(()))
  }

  /** What follows the credential in a real run of either backend: raw mode
      if standard input is a terminal, the relay, whatever `tail` does
      between the relay and closing the pty, then the restore. A failed
      `select` in the relay terminates the process. */
  function Session(mode: RawMode, capture: Capture, rawSetOk: bool, relay: RelayResult, tail: Run<()>,
                   restoreOk: bool): (r: Run<()>)
    requires !tail.finish.Unfinished?
    ensures r.finish.Unfinished? <==> EnterRaw(mode, capture, rawSetOk).finish.Done? && relay.ending.OutOfEvents?
  {
    var raw := EnterRaw(mode, capture, rawSetOk);
    if !raw.finish.Done? then Run(raw.effects, Propagate(raw.finish))
    else
      var relayed := raw.effects + [Relayed(relay)];
      if relay.ending.SelectFailed? then Run(relayed, Aborted(SelectBroke))
      else if relay.ending.OutOfEvents? then Run(relayed, Unfinished)
      else if !tail.finish.Done? then Run(relayed + tail.effects, Propagate(tail.finish))
      else
        var restored := Restore(raw.finish.value, restoreOk);
        Run(relayed + tail.effects + [ClosePty] + restored.effects, restored.finish)
  }

  /** The effects of a session that returned, in order: the raw state if a
      state was captured, the relay, the tail, closing the pty, and putting
      the captured state back. */
  function ReturnedSession(mode: RawMode, capture: Capture, relay: RelayResult, tail: seq<Effect>): seq<Effect>
  {
    (if capture.Captured? then [SetTerminal(RawState(mode, capture.state))] else [])
    + [Relayed(relay)] + tail + [ClosePty]
    + (if capture.Captured? then [SetTerminal(capture.state)] else [])
  }

  /** A session that returned ran the relay in raw mode: its effects are
      exactly the raw state (when a state was captured), the relay, the
      tail, closing the pty, and the restore, in that order. */
  lemma SessionOrder(mode: RawMode, capture: Capture, rawSetOk: bool, relay: RelayResult, tail: Run<()>,
                     restoreOk: bool)
    requires !tail.finish.Unfinished?
    requires Session(mode, capture, rawSetOk, relay, tail, restoreOk).finish.Done?
    ensures var r := Session(mode, capture, rawSetOk, relay, tail, restoreOk);
            && r.effects == ReturnedSession(mode, capture, relay, tail.effects)
            && (capture.Captured? ==>
                  && r.effects[0] == SetTerminal(RawState(mode, capture.state)) && r.effects[1] == Relayed(relay)
                  && r.effects[2..2 + |tail.effects|] == tail.effects
                  && r.effects[|r.effects| - 2] == ClosePty)
  {
    var r := Session(mode, capture, rawSetOk, relay, tail, restoreOk);
    var raw := EnterRaw(mode, capture, rawSetOk);
    var restored := Restore(raw.finish.value, restoreOk);
    assert r.effects == raw.effects + [Relayed(relay)] + tail.effects + [ClosePty] + restored.effects;
    assert raw.effects == if capture.Captured? then [SetTerminal(RawState(mode, capture.state))] else [];
    assert restored.effects == if capture.Captured? then [SetTerminal(capture.state)] else [];
  }

  /** On return from a session, raw mode was entered exactly when `tcgetattr`
      captured a state, and the captured state is the last thing written. */
  lemma SessionRestores(mode: RawMode, capture: Capture, rawSetOk: bool, relay: RelayResult, tail: Run<()>,
                        restoreOk: bool)
    requires !tail.finish.Unfinished? && TerminalWrites(tail.effects) == []
    requires Session(mode, capture, rawSetOk, relay, tail, restoreOk).finish.Done?
    ensures var r := Session(mode, capture, rawSetOk, relay, tail, restoreOk);
            && TerminalWrites(r.effects) ==
                 (if capture.Captured? then [RawState(mode, capture.state), capture.state] else [])
            && (capture.Captured? ==> r.effects[|r.effects| - 1] == SetTerminal(capture.state))
            && (capture.NotATty? || (capture.Captured? && rawSetOk && restoreOk))
  {
    var raw := EnterRaw(mode, capture, rawSetOk);
    var relayed := raw.effects + [Relayed(relay)];
    var restored := Restore(raw.finish.value, restoreOk);
    TerminalWritesAppend(raw.effects, [Relayed(relay)]);
    TerminalWritesAppend(relayed, tail.effects);
    TerminalWritesAppend(relayed + tail.effects, [ClosePty]);
    TerminalWritesAppend(relayed + tail.effects + [ClosePty], restored.effects);
  }

  /** A session that returned ran the relay to one of its own exits, ran
      the tail to completion and closed the pty. */
  lemma SessionRelays(mode: RawMode, capture: Capture, rawSetOk: bool, relay: RelayResult, tail: Run<()>,
                      restoreOk: bool)
    requires !tail.finish.Unfinished?
    requires Session(mode, capture, rawSetOk, relay, tail, restoreOk).finish.Done?
    ensures var r := Session(mode, capture, rawSetOk, relay, tail, restoreOk);
            && (relay.ending.PtyClosed? || relay.ending.ChildGone?)
            && tail.finish.Done?
            && Relayed(relay) in r.effects && ClosePty in r.effects
  {
    var raw := EnterRaw(mode, capture, rawSetOk);
    var relayed := raw.effects + [Relayed(relay)];
    var restored := Restore(raw.finish.value, restoreOk);
    assert (relayed + tail.effects + [ClosePty] + restored.effects)[|raw.effects|] == Relayed(relay);
    assert (relayed + tail.effects + [ClosePty] + restored.effects)[|relayed + tail.effects|] == ClosePty;
  }

  /** A session that terminates the process never restores the terminal: at
      most the raw state was written. When standard input is no terminal
      nothing is written at all. */
  lemma SessionAbortLeavesTerminal(mode: RawMode, capture: Capture, rawSetOk: bool, relay: RelayResult,
                                   tail: Run<()>, restoreOk: bool)
    requires !tail.finish.Unfinished? && TerminalWrites(tail.effects) == []
    ensures var r := Session(mode, capture, rawSetOk, relay, tail, restoreOk);
            && (!r.finish.Done? ==>
                  TerminalWrites(r.effects) == (if capture.Captured? && rawSetOk then [RawState(mode, capture.state)] else []))
            && (capture.NotATty? ==> TerminalWrites(r.effects) == [])
  {
    var raw := EnterRaw(mode, capture, rawSetOk);
    if raw.finish.Done? {
      var relayed := raw.effects + [Relayed(relay)];
      TerminalWritesAppend(raw.effects, [Relayed(relay)]);
      TerminalWritesAppend(relayed, tail.effects);
      if tail.finish.Done? {
        var restored := Restore(raw.finish.value, restoreOk);
        TerminalWritesAppend(relayed + tail.effects, [ClosePty]);
        TerminalWritesAppend(relayed + tail.effects + [ClosePty], restored.effects);
      }
    }
  }

  /** A real run of either backend: the credential phase `first` (spawning
      the child and handing it the password), then, if that returned, the
      session. */
  function AfterCredential(mode: RawMode, first: Run<()>, capture: Capture, rawSetOk: bool, relay: RelayResult,
                           tail: Run<()>, restoreOk: bool): (r: Run<()>)
    requires !tail.finish.Unfinished?
    ensures r.finish.Done? ==> first.finish.Done?
    ensures r.finish.Unfinished? ==> first.finish.Unfinished? || relay.ending.OutOfEvents?
    ensures first.effects <= r.effects
  {
    if !first.finish.Done? then first
    else
      var session := Session(mode, capture, rawSetOk, relay, tail, restoreOk);
      Run(first.effects + session.effects, session.finish)
  }

  /** A run that returned consists of its credential phase followed by a
      returned session, so its relay ran in raw mode. */
  lemma AfterCredentialOrder(mode: RawMode, first: Run<()>, capture: Capture, rawSetOk: bool, relay: RelayResult,
                             tail: Run<()>, restoreOk: bool)
    requires !tail.finish.Unfinished?
    requires AfterCredential(mode, first, capture, rawSetOk, relay, tail, restoreOk).finish.Done?
    ensures AfterCredential(mode, first, capture, rawSetOk, relay, tail, restoreOk).effects ==
              first.effects + ReturnedSession(mode, capture, relay, tail.effects)
  {
    SessionOrder(mode, capture, rawSetOk, relay, tail, restoreOk);
  }

  /** On return from a run whose credential phase leaves the terminal
      alone: raw mode was entered exactly when `tcgetattr` captured a
      state, and the captured state is the last thing written. */
  lemma AfterCredentialRestores(mode: RawMode, first: Run<()>, capture: Capture, rawSetOk: bool, relay: RelayResult,
                                tail: Run<()>, restoreOk: bool)
    requires !tail.finish.Unfinished? && TerminalWrites(tail.effects) == [] && TerminalWrites(first.effects) == []
    requires AfterCredential(mode, first, capture, rawSetOk, relay, tail, restoreOk).finish.Done?
    ensures var r := AfterCredential(mode, first, capture, rawSetOk, relay, tail, restoreOk);
            && TerminalWrites(r.effects) ==
                 (if capture.Captured? then [RawState(mode, capture.state), capture.state] else [])
            && (capture.Captured? ==> r.effects[|r.effects| - 1] == SetTerminal(capture.state))
            && (capture.NotATty? || (capture.Captured? && rawSetOk && restoreOk))
  {
    var session := Session(mode, capture, rawSetOk, relay, tail, restoreOk);
    SessionRestores(mode, capture, rawSetOk, relay, tail, restoreOk);
    TerminalWritesAppend(first.effects, session.effects);
  }

  /** On return from a run, the relay ended on one of its own exits and
      the pty was closed. */
  lemma AfterCredentialRelays(mode: RawMode, first: Run<()>, capture: Capture, rawSetOk: bool, relay: RelayResult,
                              tail: Run<()>, restoreOk: bool)
    requires !tail.finish.Unfinished?
    requires AfterCredential(mode, first, capture, rawSetOk, relay, tail, restoreOk).finish.Done?
    ensures var r := AfterCredential(mode, first, capture, rawSetOk, relay, tail, restoreOk);
            && (relay.ending.PtyClosed? || relay.ending.ChildGone?)
            && Relayed(relay) in r.effects && ClosePty in r.effects
  {
    var session := Session(mode, capture, rawSetOk, relay, tail, restoreOk);
    var r := AfterCredential(mode, first, capture, rawSetOk, relay, tail, restoreOk);
    SessionRelays(mode, capture, rawSetOk, relay, tail, restoreOk);
    var i :| 0 <= i < |session.effects| && session.effects[i] == Relayed(relay);
    assert r.effects[|first.effects| + i] == Relayed(relay);
    var j :| 0 <= j < |session.effects| && session.effects[j] == ClosePty;
    assert r.effects[|first.effects| + j] == ClosePty;
  }

  /** A run whose credential phase leaves the terminal alone and which then
      terminates the process never restores the terminal: the raw state was
      written exactly when the credential phase returned and raw mode was
      set, and nothing else was written. */
  lemma AfterCredentialAbortLeavesTerminal(mode: RawMode, first: Run<()>, capture: Capture, rawSetOk: bool,
                                           relay: RelayResult, tail: Run<()>, restoreOk: bool)
    requires !tail.finish.Unfinished? && TerminalWrites(tail.effects) == [] && TerminalWrites(first.effects) == []
    ensures var r := AfterCredential(mode, first, capture, rawSetOk, relay, tail, restoreOk);
            && (!r.finish.Done? ==> |TerminalWrites(r.effects)| <= 1)
            && (!r.finish.Done? ==>
                  TerminalWrites(r.effects) ==
                    (if first.finish.Done? && capture.Captured? && rawSetOk then [RawState(mode, capture.state)] else []))
            && (capture.NotATty? ==> TerminalWrites(r.effects) == [])
  {
    if first.finish.Done? {
      var session := Session(mode, capture, rawSetOk, relay, tail, restoreOk);
      SessionAbortLeavesTerminal(mode, capture, rawSetOk, relay, tail, restoreOk);
      TerminalWritesAppend(first.effects, session.effects);
    }
  }
}

=== FILE: relay.dfy ===
/** What the relay loops of both backends observe from the operating system,
    reduced to events: once per iteration, the non-blocking wait for the
    child and the readiness `select` reports; and, separately, what each
    `read` on the pseudoterminal or on standard input returns, in the order
    the reads happen. A read stream only advances when the loop actually
    reads, so data left unread in one iteration is still there later. */
module Relay {
  import opened Base

  /** Size of the buffer each `read` fills. */
  const BUFF_SIZE: nat := 1024

  /** What one `read` returned: some bytes (none at end of file) or -1. */
  datatype ReadResult = Bytes(data: seq<byte>) | ReadError

  /** True when the read returned 0 or -1, the su relay's end condition. */
  predicate AtEnd(r: ReadResult)
  {
    r.ReadError? || |r.data| == 0
  }

  /** The bytes a `write` of what was read passes on. After -1 nothing is
      passed on. */
  function Payload(r: ReadResult): seq<byte>
  {
    match r
    case Bytes(data) => data
    case ReadError => []
  }

  /** The payloads of successive reads, laid end to end in read order. */
  function Payloads(rs: seq<ReadResult>): (out: seq<byte>)
    ensures |rs| == 0 ==> out == []
  {
    if |rs| == 0 then [] else Payload(rs[0]) + Payloads(rs[1..])
  }

  /** Payloads of a range split at its first read. */
  lemma PayloadsFirst(rs: seq<ReadResult>, a: nat, b: nat)
    requires a < b <= |rs|
    ensures Payloads(rs[a..b]) == Payload(rs[a]) + Payloads(rs[a + 1..b])
  {
    assert rs[a..b][1..] == rs[a + 1..b];
  }

  /** Payloads of two streams read one after the other. */
  lemma {:induction false} PayloadsAppend(a: seq<ReadResult>, b: seq<ReadResult>)
    ensures Payloads(a + b) == Payloads(a) + Payloads(b)
  {
    if |a| > 0 {
      assert (a + b)[1..] == a[1..] + b;
      PayloadsAppend(a[1..], b);
    } else {
      assert a + b == b;
    }
  }

  /** What `waitpid(pid, &status, WNOHANG)` returned: 0, the pid, or -1. */
  datatype ChildPoll = Running | Ended | PollError

  /** What the readiness `select` over the pty and standard input reported. */
  datatype Readiness = SelectError | Ready(pty: bool, stdin: bool)

  /** One iteration's view of the world. */
  datatype Tick = Tick(child: ChildPoll, ready: Readiness)

  /** Why a relay loop stopped. `OutOfEvents` means the given events ran out
      before the loop would have ended; the loop itself has no such exit. */
  datatype Ending = PtyClosed | ChildGone | SelectFailed | OutOfEvents

  /** How far a relay got: the iterations and reads it performed and the bytes
      it wrote to standard output and to the pty. */
  datatype RelayResult = RelayResult(ending: Ending, ticks: nat, ptyReads: nat, stdinReads: nat,
                                     toStdout: seq<byte>, toPty: seq<byte>)

  /** The pty stream a child produces when it writes `payload` and then
      closes: reads of at most `BUFF_SIZE` bytes each, then end of file. */
  function ChunksOf(payload: seq<byte>): (rs: seq<ReadResult>)
    ensures forall k :: 0 <= k < |rs| ==> rs[k].Bytes? && 0 < |rs[k].data| <= BUFF_SIZE
    ensures Payloads(rs) == payload
    decreases |payload|
  {
    if |payload| == 0 then []
    else if |payload| <= BUFF_SIZE then [Bytes(payload)]
    else [Bytes(payload[..BUFF_SIZE])] + ChunksOf(payload[BUFF_SIZE..])
  }
}

=== FILE: su_backend.dfy ===
/** The su backend: the elevation program runs inside a pseudoterminal, the
    password is typed into that terminal once any output (taken to be the
    prompt) has appeared, and the verdict is read off the child's exit
    status. A real run then relays bytes between the invoking terminal and
    the pseudoterminal until reading the pseudoterminal returns 0 or -1. */
module SuBackend {
  import opened Base
  import opened Errors
  import opened WaitStatus
  import opened Terminal
  import opened Relay
  import opened Process

  /** The build target; it decides su's keep-the-environment flag. */
  datatype Platform = Linux | FreeBSD

  /** How many times the prompt wait polls the pseudoterminal. */
  const PROMPT_POLLS: nat := 500

  /** The size `snprintf` is given for the password line, terminator included. */
  const LINE_BUFFER: nat := 64

  function KeepEnvironment(p: Platform): string
  {
    if p.FreeBSD? then "-m" else "-p"
  }

  /** The argument vector of su, running `shellCommand` through the target
      user's shell. */
  function SuArgv(p: Platform, suPath: string, username: string, shellCommand: string): seq<string>
  {
    [suPath, username, KeepEnvironment(p), "-c", shellCommand]
  }

  /** The probe runs the no-op `exit`. */
  function ProbeArgv(p: Platform, suPath: string, username: string): seq<string>
  {
    SuArgv(p, suPath, username, "exit")
  }

  /** The real run passes the joined command line through unparsed. */
  function RunArgv(p: Platform, suPath: string, username: string, command: string): seq<string>
  {
    SuArgv(p, suPath, username, command)
  }

  /** Probe and run differ only in the shell command, which is passed as one
      argument exactly as given. */
  lemma ProbeAndRunArgv(p: Platform, suPath: string, username: string, command: string)
    ensures |ProbeArgv(p, suPath, username)| == |RunArgv(p, suPath, username, command)| == 5
    ensures ProbeArgv(p, suPath, username)[..4] == RunArgv(p, suPath, username, command)[..4]
    ensures ProbeArgv(p, suPath, username)[4] == "exit"
    ensures RunArgv(p, suPath, username, command)[4] == command
    ensures RunArgv(p, suPath, username, command)[..4] == [suPath, username, KeepEnvironment(p), "-c"]
  {
  }

  /** su is started in the pty with all three streams on its slave side, in
      a new session, ignoring hang-ups. */
  function SuChild(argv: seq<string>): Child
  {
    Child(argv, PtySlave, PtySlave, PtySlave, true, true)
  }

  function Min(a: nat, b: nat): nat
  {
    if a < b then a else b
  }

  /** The bytes written to the pty for the password: `snprintf(buf, 64,
      "%s\n", password)` keeps at most 63 bytes of the password and its
      newline, and `strlen` then measures what was kept. */
  function PasswordLine(password: CString): (line: seq<byte>)
    ensures |line| == Min(|password| + 1, LINE_BUFFER - 1)
    ensures line <= password + [NEWLINE]
  {
    var full := password + [NEWLINE];
    if |full| < LINE_BUFFER then full else full[..LINE_BUFFER - 1]
  }

  /** The newline survives exactly for passwords of at most 62 bytes; from
      63 bytes on, what is sent is the first 63 password bytes alone. */
  lemma PasswordLineNewline(password: CString)
    ensures |password| < LINE_BUFFER - 1 ==> PasswordLine(password) == password + [NEWLINE]
    ensures |password| >= LINE_BUFFER - 1 ==> PasswordLine(password) == password[..LINE_BUFFER - 1]
  {
    var line := PasswordLine(password);
    if |password| >= LINE_BUFFER - 1 {
      assert line == (password + [NEWLINE])[..LINE_BUFFER - 1];
      assert (password + [NEWLINE])[..LINE_BUFFER - 1] == password[..LINE_BUFFER - 1];
    }
  }

  /** How the prompt wait ended: a poll found output, every poll timed out,
      or a poll failed. `polls` counts the polls made. */
  datatype PromptResult = Prompted(polls: nat) | NoPrompt | PollBroken(polls: nat)

  /** The prompt wait after `k` quiet polls. */
  function PromptWaitFrom(prompt: nat -> Poll, k: nat): (w: PromptResult)
    requires k <= PROMPT_POLLS
    decreases PROMPT_POLLS - k
    ensures w.Prompted? || w.PollBroken? ==> k < w.polls <= PROMPT_POLLS
    ensures w.Prompted? || w.PollBroken? ==> forall j :: k <= j < w.polls - 1 ==> prompt(j) == Quiet
    ensures w.Prompted? ==> prompt(w.polls - 1) == Readable
    ensures w.PollBroken? ==> prompt(w.polls - 1) == PollFailed
    ensures w.NoPrompt? ==> forall j :: k <= j < PROMPT_POLLS ==> prompt(j) == Quiet
  {
    if k == PROMPT_POLLS then NoPrompt
    else match prompt(k)
      case Readable => Prompted(k + 1)
      case PollFailed => PollBroken(k + 1)
      case Quiet => PromptWaitFrom(prompt, k + 1)
  }

  /** The wait for su's password prompt: poll the pty up to 500 times and
      stop at the first poll that finds anything to read. */
  function PromptWait(prompt: nat -> Poll): (w: PromptResult)
    ensures w.Prompted? || w.PollBroken? ==> 0 < w.polls <= PROMPT_POLLS
    ensures w.NoPrompt? <==> forall j :: 0 <= j < PROMPT_POLLS ==> prompt(j) == Quiet
  {
    PromptWaitFrom(prompt, 0)
  }

  /** Conversely, the first poll with output ends the wait, however many
      polls it took, as long as it is within the bound. */
  lemma PromptSeenAt(prompt: nat -> Poll, j: nat)
    requires j < PROMPT_POLLS && prompt(j) == Readable
    requires forall i :: 0 <= i < j ==> prompt(i) == Quiet
    ensures PromptWait(prompt) == Prompted(j + 1)
  {
  }

  /** `end_su`: one short poll; if the pty is readable, one read whose bytes
      are dropped. A failed poll terminates the process. */
  function EndSu(poll: Poll): (r: Run<()>)
    ensures r.finish.Done? <==> poll != PollFailed
    ensures r.finish.Aborted? <==> poll == PollFailed
    ensures r.effects == if poll == Readable then [Drain] else []
  {
    match poll
    case Quiet => Run([], Done(()))
    case Readable => Run([Drain], Done(()))
    case PollFailed => Run([], Aborted(SelectBroke))
  }

  /** `init_su`: spawn su in a pty, wait for the prompt, type the password,
      drain. */
  function InitSu(forkOk: bool, prompt: nat -> Poll, drain: Poll, argv: seq<string>,
                  password: CString): (r: Run<()>)
    ensures !r.finish.Unfinished?
    ensures r.finish.Done? <==> forkOk && PromptWait(prompt).Prompted? && drain != PollFailed
    ensures forkOk && PromptWait(prompt).NoPrompt? ==> r.finish == Aborted(NoPromptGiven)
    ensures forkOk ==> 1 <= |r.effects| && r.effects[0] == Spawn(SuChild(argv))
    ensures r.finish.Done? ==> 3 <= |r.effects|
    ensures r.finish.Done? ==>
              r.effects[..3] == [Spawn(SuChild(argv)), ReadPrompt, PtyWrite(PasswordLine(password))]
    ensures TerminalWrites(r.effects) == []
  {
    if !forkOk then Run([], Aborted(ForkFailed))
    else
      var spawned := [Spawn(SuChild(argv))];
      match PromptWait(prompt)
      case NoPrompt => Run(spawned + [KillChild], Aborted(NoPromptGiven))
      case PollBroken(_) => Run(spawned, Aborted(SelectBroke))
      case Prompted(_) =>
        var drained := EndSu(drain);
        var effects := spawned + [ReadPrompt, PtyWrite(PasswordLine(password))] + drained.effects;
        assert TerminalWrites(effects) == [] by {
          NoTerminalWrites(effects);
        }
        Run(effects, drained.finish)
  }

  /** An `init_su` that returned spawned su, read the prompt, typed the
      password and drained the pty, and did nothing else. */
  lemma InitSuOrder(forkOk: bool, prompt: nat -> Poll, drain: Poll, argv: seq<string>, password: CString)
    requires InitSu(forkOk, prompt, drain, argv, password).finish.Done?
    ensures InitSu(forkOk, prompt, drain, argv, password).effects ==
              [Spawn(SuChild(argv)), ReadPrompt, PtyWrite(PasswordLine(password))] + EndSu(drain).effects
  {
  }

  /** The child is killed exactly when no prompt came, and the password is
      written once, as the third step, and only after the prompt. */
  lemma InitSuKillsOnlyWithoutPrompt(forkOk: bool, prompt: nat -> Poll, drain: Poll, argv: seq<string>,
                                     password: CString)
    ensures var r := InitSu(forkOk, prompt, drain, argv, password);
            && (KillChild in r.effects <==> forkOk && PromptWait(prompt).NoPrompt?)
            && (forall k :: 0 <= k < |r.effects| && r.effects[k].PtyWrite? ==>
                  k == 2 && r.effects[k].bytes == PasswordLine(password) && PromptWait(prompt).Prompted?)
  {
  }

  /** `check_password_su`: run `su user -p -c exit`, type the password,
      wait for su without checking the wait's result, drain, close the pty
      and classify the status. */
  function CheckPasswordSu(p: Platform, suPath: string, os: ProbeOs, username: string,
                           password: CString): (r: Run<ErrorCode>)
    ensures !r.finish.Unfinished?
    ensures r.finish.Done? <==> os.forkOk && PromptWait(os.prompt).Prompted?
                                && os.drainAfterWrite != PollFailed && os.drainAfterWait != PollFailed
    ensures r.finish.Done? ==> r.finish.value == Classify(StatusAfterWait(os.wait))
    ensures r.finish.Done? ==> 4 <= |r.effects|
    ensures os.forkOk ==> 1 <= |r.effects| && r.effects[0] == Spawn(SuChild(ProbeArgv(p, suPath, username)))
    ensures r.finish.Done? ==> r.effects[0] == Spawn(SuChild(ProbeArgv(p, suPath, username)))
    ensures r.finish.Done? ==> r.effects[2] == PtyWrite(PasswordLine(password))
    ensures r.finish.Done? ==> r.effects[|r.effects| - 1] == ClosePty
    ensures r.finish.Done? ==>
              r.effects == [Spawn(SuChild(ProbeArgv(p, suPath, username))), ReadPrompt, PtyWrite(PasswordLine(password))]
                           + EndSu(os.drainAfterWrite).effects + [Reap] + EndSu(os.drainAfterWait).effects + [ClosePty]
    ensures TerminalWrites(r.effects) == []
  {
    var init := InitSu(os.forkOk, os.prompt, os.drainAfterWrite, ProbeArgv(p, suPath, username), password);
    if !init.finish.Done? then Run(init.effects, Propagate(init.finish))
    else
      InitSuOrder(os.forkOk, os.prompt, os.drainAfterWrite, ProbeArgv(p, suPath, username), password);
      var drained := EndSu(os.drainAfterWait);
      var effects := init.effects + [Reap] + drained.effects;
      assert TerminalWrites(effects) == [] by {
        TerminalWritesAppend(init.effects, [Reap]);
        TerminalWritesAppend(init.effects + [Reap], drained.effects);
      }
      if !drained.finish.Done? then Run(effects, Propagate(drained.finish))
      else
        assert TerminalWrites(effects + [ClosePty]) == [] by {
          TerminalWritesAppend(effects, [ClosePty]);
        }
        Run(effects + [ClosePty], Done(Classify(StatusAfterWait(os.wait))))
  }

  /** The probe's verdict, on the child's fate: success exactly for exit
      code 0 or a wait that failed, the bare -1 exactly for a signal. */
  lemma CheckPasswordSuVerdict(p: Platform, suPath: string, os: ProbeOs, username: string,
                               password: CString, fate: Status)
    requires ValidStatus(fate)
    requires os.wait == Reaped(Encode(fate)) || os.wait == WaitFailed
    requires CheckPasswordSu(p, suPath, os, username, password).finish.Done?
    ensures var code := CheckPasswordSu(p, suPath, os, username, password).finish.value;
            && (os.wait == WaitFailed ==> code == Success)
            && (os.wait == Reaped(Encode(fate)) ==>
                  && (code == Success <==> fate == Exited(0))
                  && (code == SignaledChild <==> fate.Killed?)
                  && (code == WrongUserOrPasswd <==> !(fate == Exited(0) || fate.Killed?)))
  {
    if os.wait == Reaped(Encode(fate)) {
      ClassifyMeaning(fate);
    } else {
      FailedWaitIsSuccess();
    }
  }

  /** The `run_su` relay from iteration `i`, with `p` pty reads and `q`
      standard-input reads already made. Each iteration polls the child
      without looking at the answer, then serves the pty if it is readable,
      otherwise standard input if that is readable; a pty read of 0 or -1
      ends the loop. Byte counts are relative to the starting point. */
  function SuRelayFrom(ticks: seq<Tick>, pty: seq<ReadResult>, stdin: seq<ReadResult>,
                       i: nat, p: nat, q: nat): (r: RelayResult)
    requires i <= |ticks| && p <= |pty| && q <= |stdin|
    decreases |ticks| - i
    ensures i <= r.ticks <= |ticks| && p <= r.ptyReads <= |pty| && q <= r.stdinReads <= |stdin|
    ensures r.ending != ChildGone
  {
    if i == |ticks| then RelayResult(OutOfEvents, i, p, q, [], [])
    else match ticks[i].ready
      case SelectError => RelayResult(SelectFailed, i + 1, p, q, [], [])
      case Ready(ptyReady, stdinReady) =>
        if ptyReady then
          if p == |pty| then RelayResult(OutOfEvents, i, p, q, [], [])
          else if AtEnd(pty[p]) then RelayResult(PtyClosed, i + 1, p + 1, q, [], [])
          else
            var rest := SuRelayFrom(ticks, pty, stdin, i + 1, p + 1, q);
            rest.(toStdout := pty[p].data + rest.toStdout)
        else if stdinReady then
          if q == |stdin| then RelayResult(OutOfEvents, i, p, q, [], [])
          else
            var rest := SuRelayFrom(ticks, pty, stdin, i + 1, p, q + 1);
            rest.(toPty := Payload(stdin[q]) + rest.toPty)
        else SuRelayFrom(ticks, pty, stdin, i + 1, p, q)
  }

  /** Every byte read from the pty is written to standard output and every
      byte read from standard input is written to the pty, in read order,
      with nothing added or dropped; each iteration moves data in at most
      one direction. */
  lemma {:induction false} SuRelayCopiesInOrder(ticks: seq<Tick>, pty: seq<ReadResult>,
      stdin: seq<ReadResult>, i: nat, p: nat, q: nat)
    requires i <= |ticks| && p <= |pty| && q <= |stdin|
    decreases |ticks| - i
    ensures var r := SuRelayFrom(ticks, pty, stdin, i, p, q);
            && r.toStdout == Payloads(pty[p..r.ptyReads])
            && r.toPty == Payloads(stdin[q..r.stdinReads])
            && (r.ptyReads - p) + (r.stdinReads - q) <= r.ticks - i
  {
    var r := SuRelayFrom(ticks, pty, stdin, i, p, q);
    if i < |ticks| && ticks[i].ready.Ready? {
      if ticks[i].ready.pty {
        if p < |pty| {
          if !AtEnd(pty[p]) {
            SuRelayCopiesInOrder(ticks, pty, stdin, i + 1, p + 1, q);
          }
          PayloadsFirst(pty, p, r.ptyReads);
        }
      } else if ticks[i].ready.stdin {
        if q < |stdin| {
          SuRelayCopiesInOrder(ticks, pty, stdin, i + 1, p, q + 1);
          PayloadsFirst(stdin, q, r.stdinReads);
        }
      } else {
        SuRelayCopiesInOrder(ticks, pty, stdin, i + 1, p, q);
      }
    }
  }

  /** The relay ends on the pty exactly at the first pty read that returns 0
      or -1; a select failure is the only other way out. */
  lemma {:induction false} SuRelayEndsAtPtyEnd(ticks: seq<Tick>, pty: seq<ReadResult>,
      stdin: seq<ReadResult>, i: nat, p: nat, q: nat)
    requires i <= |ticks| && p <= |pty| && q <= |stdin|
    decreases |ticks| - i
    ensures var r := SuRelayFrom(ticks, pty, stdin, i, p, q);
            && (r.ending == PtyClosed ==> p < r.ptyReads && AtEnd(pty[r.ptyReads - 1]))
            && (r.ending == PtyClosed ==> forall k :: p <= k < r.ptyReads - 1 ==> !AtEnd(pty[k]))
            && (r.ending != PtyClosed ==> forall k :: p <= k < r.ptyReads ==> !AtEnd(pty[k]))
            && (r.ending == SelectFailed ==> i < r.ticks && ticks[r.ticks - 1].ready.SelectError?)
  {
    if i < |ticks| && ticks[i].ready.Ready? {
      if ticks[i].ready.pty {
        if p < |pty| && !AtEnd(pty[p]) {
          SuRelayEndsAtPtyEnd(ticks, pty, stdin, i + 1, p + 1, q);
        }
      } else if ticks[i].ready.stdin {
        if q < |stdin| {
          SuRelayEndsAtPtyEnd(ticks, pty, stdin, i + 1, p, q + 1);
        }
      } else {
        SuRelayEndsAtPtyEnd(ticks, pty, stdin, i + 1, p, q);
      }
    }
  }

  /** The whole `run_su` relay. */
  function SuRelay(ticks: seq<Tick>, pty: seq<ReadResult>, stdin: seq<ReadResult>): RelayResult
  {
    SuRelayFrom(ticks, pty, stdin, 0, 0, 0)
  }

  /** Two iterations the su relay cannot tell apart: the child poll may
      differ, and so may standard input's readiness when the pty is ready. */
  predicate SameForSu(a: Tick, b: Tick)
  {
    match a.ready
    case SelectError => b.ready.SelectError?
    case Ready(ptyReady, stdinReady) =>
      b.ready.Ready? && b.ready.pty == ptyReady && (ptyReady || b.ready.stdin == stdinReady)
  }

  /** The relay neither ends on nor otherwise depends on what the
      non-blocking wait reports, and standard input is never read in an
      iteration where the pty is readable. */
  lemma {:induction false} SuRelayIgnoresWaitAndDefersStdin(a: seq<Tick>, b: seq<Tick>,
      pty: seq<ReadResult>, stdin: seq<ReadResult>, i: nat, p: nat, q: nat)
    requires |a| == |b| && i <= |a| && p <= |pty| && q <= |stdin|
    requires forall k :: i <= k < |a| ==> SameForSu(a[k], b[k])
    ensures SuRelayFrom(a, pty, stdin, i, p, q) == SuRelayFrom(b, pty, stdin, i, p, q)
    decreases |a| - i
  {
    if i < |a| {
      assert SameForSu(a[i], b[i]);
      match a[i].ready
      case SelectError =>
      case Ready(ptyReady, stdinReady) =>
        if ptyReady {
          if p < |pty| {
            SuRelayIgnoresWaitAndDefersStdin(a, b, pty, stdin, i + 1, p + 1, q);
          }
        } else if stdinReady {
          if q < |stdin| {
            SuRelayIgnoresWaitAndDefersStdin(a, b, pty, stdin, i + 1, p, q + 1);
          }
        } else {
          SuRelayIgnoresWaitAndDefersStdin(a, b, pty, stdin, i + 1, p, q);
        }
    }
  }

  /** With the pty readable on every iteration, the relay reads the pty
      stream up to and including its first end, and stops there. */
  lemma {:induction false} SuRelayReadsToEnd(ticks: seq<Tick>, pty: seq<ReadResult>,
      stdin: seq<ReadResult>, i: nat, p: nat)
    requires p < |pty| && AtEnd(pty[|pty| - 1])
    requires forall k :: p <= k < |pty| - 1 ==> !AtEnd(pty[k])
    requires i + (|pty| - 1 - p) < |ticks|
    requires forall k :: i <= k < |ticks| ==> ticks[k].ready.Ready? && ticks[k].ready.pty
    decreases |ticks| - i
    ensures SuRelayFrom(ticks, pty, stdin, i, p, 0).ending == PtyClosed
    ensures SuRelayFrom(ticks, pty, stdin, i, p, 0).ptyReads == |pty|
  {
    assert ticks[i].ready.Ready? && ticks[i].ready.pty;
    if p < |pty| - 1 {
      SuRelayReadsToEnd(ticks, pty, stdin, i + 1, p + 1);
    }
  }

  /** A child that writes `payload` and closes its side: served with the pty
      readable on every iteration, the relay passes the whole payload to
      standard output however many reads of at most `BUFF_SIZE` bytes it
      takes, and then stops. */
  lemma SuRelayDeliversPayload(ticks: seq<Tick>, payload: seq<byte>, stdin: seq<ReadResult>)
    requires |ChunksOf(payload)| < |ticks|
    requires forall k :: 0 <= k < |ticks| ==> ticks[k].ready.Ready? && ticks[k].ready.pty
    ensures SuRelay(ticks, ChunksOf(payload) + [Bytes([])], stdin).ending == PtyClosed
    ensures SuRelay(ticks, ChunksOf(payload) + [Bytes([])], stdin).toStdout == payload
  {
    var chunks := ChunksOf(payload);
    var pty := chunks + [Bytes([])];
    assert forall k :: 0 <= k < |pty| - 1 ==> pty[k] == chunks[k];
    SuRelayReadsToEnd(ticks, pty, stdin, 0, 0);
    SuRelayCopiesInOrder(ticks, pty, stdin, 0, 0, 0);
    PayloadsAppend(chunks, [Bytes([])]);
    assert pty[0..|pty|] == pty;
    assert Payloads([Bytes([])]) == [];
  }

  /** `run_su`: spawn su with the real command, type the password, then the
      session: raw mode if standard input is a terminal, the relay until the
      pty ends, one drain, closing the pty and restoring the terminal. */
  function RunSu(mode: RawMode, p: Platform, suPath: string, os: RunOs, username: string, password: CString,
                 command: string): (r: Run<()>)
    ensures r.finish.Done? ==> os.forkOk && PromptWait(os.prompt).Prompted? && os.drainAfterWrite != PollFailed
    ensures r.finish.Unfinished? ==> SuRelay(os.ticks, os.ptyReads, os.stdinReads).ending == OutOfEvents
  {
    AfterCredential(mode, InitSu(os.forkOk, os.prompt, os.drainAfterWrite, RunArgv(p, suPath, username, command), password),
                    os.capture, os.rawSetOk, SuRelay(os.ticks, os.ptyReads, os.stdinReads),
                    EndSu(os.finalDrain), os.restoreOk)
  }

  /** The order `run_su` keeps on return: su is spawned with the real
      command and the password is typed before anything touches the
      terminal. */
  lemma RunSuPasswordFirst(mode: RawMode, p: Platform, suPath: string, os: RunOs, username: string,
                           password: CString, command: string)
    requires RunSu(mode, p, suPath, os, username, password, command).finish.Done?
    ensures var r := RunSu(mode, p, suPath, os, username, password, command);
            && 3 <= |r.effects|
            && r.effects[0] == Spawn(SuChild(RunArgv(p, suPath, username, command)))
            && r.effects[2] == PtyWrite(PasswordLine(password))
            && (forall k :: 0 <= k < |r.effects| && r.effects[k].SetTerminal? ==> 2 < k)
  {
    var init := InitSu(os.forkOk, os.prompt, os.drainAfterWrite,
                       RunArgv(p, suPath, username, command), password);
    var r := RunSu(mode, p, suPath, os, username, password, command);
    assert init.effects <= r.effects;
    NoTerminalWrites(init.effects);
    assert init.effects[..3][0] == init.effects[0] && init.effects[..3][2] == init.effects[2];
  }

  /** Once the fork works, `run_su` starts by spawning su with the real
      command for `username`, whether or not the run returns. */
  lemma RunSuSpawnsFirst(mode: RawMode, p: Platform, suPath: string, os: RunOs, username: string,
                         password: CString, command: string)
    requires os.forkOk
    ensures var r := RunSu(mode, p, suPath, os, username, password, command);
            1 <= |r.effects| && r.effects[0] == Spawn(SuChild(RunArgv(p, suPath, username, command)))
  {
    var init := InitSu(os.forkOk, os.prompt, os.drainAfterWrite, RunArgv(p, suPath, username, command), password);
    assert init.effects <= RunSu(mode, p, suPath, os, username, password, command).effects;
  }

  /** A `run_su` that returned ran the relay in raw mode: its effects are
      exactly spawning su with the real command, reading the prompt, typing
      the password, the drain, then the raw state (with a terminal), the
      relay, the `end_su` drain, closing the pty and the restore. */
  lemma RunSuOrder(mode: RawMode, p: Platform, suPath: string, os: RunOs, username: string,
                   password: CString, command: string)
    requires RunSu(mode, p, suPath, os, username, password, command).finish.Done?
    ensures RunSu(mode, p, suPath, os, username, password, command).effects ==
              [Spawn(SuChild(RunArgv(p, suPath, username, command))), ReadPrompt, PtyWrite(PasswordLine(password))]
              + EndSu(os.drainAfterWrite).effects
              + ReturnedSession(mode, os.capture, SuRelay(os.ticks, os.ptyReads, os.stdinReads), EndSu(os.finalDrain).effects)
  {
    var tail := EndSu(os.finalDrain);
    var init := InitSu(os.forkOk, os.prompt, os.drainAfterWrite, RunArgv(p, suPath, username, command), password);
    InitSuOrder(os.forkOk, os.prompt, os.drainAfterWrite, RunArgv(p, suPath, username, command), password);
    AfterCredentialOrder(mode, init, os.capture, os.rawSetOk, SuRelay(os.ticks, os.ptyReads, os.stdinReads),
                         tail, os.restoreOk);
  }

  /** On return from `run_su` the terminal was put back to the captured
      state last; raw mode was entered exactly when `tcgetattr` captured a
      state. The relay ran and ended on the pty, and the pty was closed. */
  lemma RunSuRestoresTerminal(mode: RawMode, p: Platform, suPath: string, os: RunOs, username: string,
                              password: CString, command: string)
    requires RunSu(mode, p, suPath, os, username, password, command).finish.Done?
    ensures var r := RunSu(mode, p, suPath, os, username, password, command);
            && TerminalWrites(r.effects) ==
                 (if os.capture.Captured? then [RawState(mode, os.capture.state), os.capture.state] else [])
            && (os.capture.Captured? ==> r.effects[|r.effects| - 1] == SetTerminal(os.capture.state))
            && SuRelay(os.ticks, os.ptyReads, os.stdinReads).ending == PtyClosed
            && Relayed(SuRelay(os.ticks, os.ptyReads, os.stdinReads)) in r.effects
            && ClosePty in r.effects
  {
    var tail := EndSu(os.finalDrain);
    NoTerminalWrites(tail.effects);
    SuRelayFacts(os.ticks, os.ptyReads, os.stdinReads);
    var init := InitSu(os.forkOk, os.prompt, os.drainAfterWrite, RunArgv(p, suPath, username, command), password);
    var relay := SuRelay(os.ticks, os.ptyReads, os.stdinReads);
    AfterCredentialRestores(mode, init, os.capture, os.rawSetOk, relay, tail, os.restoreOk);
    AfterCredentialRelays(mode, init, os.capture, os.rawSetOk, relay, tail, os.restoreOk);
  }

  /** The su relay never ends because the child exited. */
  lemma SuRelayFacts(ticks: seq<Tick>, pty: seq<ReadResult>, stdin: seq<ReadResult>)
    ensures SuRelay(ticks, pty, stdin).ending != ChildGone
  {
  }

  /** When `run_su` terminates the process, the terminal is left as it was
      or in raw mode, never restored; a standard input that is no terminal
      is never touched. */
  lemma RunSuAbortLeavesTerminal(mode: RawMode, p: Platform, suPath: string, os: RunOs, username: string,
                                 password: CString, command: string)
    ensures var r := RunSu(mode, p, suPath, os, username, password, command);
            && (!r.finish.Done? ==> |TerminalWrites(r.effects)| <= 1)
            && (!r.finish.Done? ==>
                  TerminalWrites(r.effects) ==
                    (if && os.forkOk && PromptWait(os.prompt).Prompted? && os.drainAfterWrite != PollFailed
                        && os.capture.Captured? && os.rawSetOk
                     then [RawState(mode, os.capture.state)] else []))
            && (os.capture.NotATty? ==> TerminalWrites(r.effects) == [])
  {
    var tail := EndSu(os.finalDrain);
    NoTerminalWrites(tail.effects);
    AfterCredentialAbortLeavesTerminal(mode,
      InitSu(os.forkOk, os.prompt, os.drainAfterWrite, RunArgv(p, suPath, username, command), password),
      os.capture, os.rawSetOk, SuRelay(os.ticks, os.ptyReads, os.stdinReads), tail, os.restoreOk);
  }
}

=== FILE: sudo_backend.dfy ===
/** The sudo backend: sudo is told to read the password from its standard
    input, which is a pipe the parent writes one line into and closes; the
    verdict is read off the child's exit status. A real run starts sudo in a
    pseudoterminal with the same pipe as its standard input and relays bytes
    until the non-blocking wait stops reporting the child as running. */
module SudoBackend {
  import opened Base
  import opened Errors
  import opened WaitStatus
  import opened Terminal
  import opened Relay
  import opened Process

  /** The size of the buffer the password line is formatted into. */
  const PASS_BUFFER: nat := 64

  /** The argument vector of sudo: as user `username`, forget cached
      credentials, read the password from standard input, print an empty
      prompt, keep the environment, run `program`. */
  function SudoArgv(sudoPath: string, username: string, program: string): seq<string>
  {
    [sudoPath, "-u", username, "-k", "-S", "-p", "", "-E", program]
  }

  /** The probe runs the no-op `true`. */
  function ProbeArgv(sudoPath: string, username: string): seq<string>
  {
    SudoArgv(sudoPath, username, "true")
  }

  /** The real run passes the joined command line through as one argument. */
  function RunArgv(sudoPath: string, username: string, command: string): seq<string>
  {
    SudoArgv(sudoPath, username, command)
  }

  /** Probe and run differ only in the last argument, which is the command
      exactly as given. */
  lemma ProbeAndRunArgv(sudoPath: string, username: string, command: string)
    ensures |ProbeArgv(sudoPath, username)| == |RunArgv(sudoPath, username, command)| == 9
    ensures ProbeArgv(sudoPath, username)[..8] == RunArgv(sudoPath, username, command)[..8]
    ensures ProbeArgv(sudoPath, username)[8] == "true"
    ensures RunArgv(sudoPath, username, command)[8] == command
    ensures RunArgv(sudoPath, username, command)[2] == username
  {
  }

  /** The probe child: a plain fork, standard input from the pipe, standard
      error to /dev/null, standard output inherited. */
  function ProbeChild(argv: seq<string>): Child
  {
    Child(argv, PipeReadEnd, Inherited, DevNull, false, false)
  }

  /** The run child: in the pty and a new session, with standard input
      replaced by the pipe; it does not ignore hang-ups. */
  function RunChild(argv: seq<string>): Child
  {
    Child(argv, PipeReadEnd, PtySlave, PtySlave, true, false)
  }

  /** The line `sprintf(pass, "%s\n", password)` produces. The buffer has 64
      bytes, so the password must be at most 62 bytes long for the line and
      its terminator to fit. */
  function CredentialLine(password: CString): (line: seq<byte>)
    requires |password| + 2 <= PASS_BUFFER
    ensures |line| == |password| + 1 && |line| + 1 <= PASS_BUFFER
    ensures line[..|line| - 1] == password && line[|line| - 1] == NEWLINE
  {
    password + [NEWLINE]
  }

  /** The parent's side of the pipe: close the read end, write the line,
      close the write end. */
  function FeedPipe(password: CString): seq<Effect>
    requires |password| + 2 <= PASS_BUFFER
  {
    [ClosePipeRead, PipeWrite(CredentialLine(password)), ClosePipeWrite]
  }

  /** `check_password_sudo`: open the pipe, fork sudo running `true`, feed it
      the password line, wait for it without checking the wait's result and
      classify the status. */
  function CheckPasswordSudo(sudoPath: string, os: ProbeOs, username: string,
                             password: CString): (r: Run<ErrorCode>)
    requires |password| + 2 <= PASS_BUFFER
    ensures !r.finish.Unfinished?
    ensures r.finish.Done? <==> os.pipeOk && os.forkOk
    ensures !os.pipeOk ==> r.finish == Aborted(PipeFailed) && r.effects == []
    ensures r.finish.Done? ==> r.finish.value == Classify(StatusAfterWait(os.wait))
    ensures r.finish.Done? ==> |r.effects| == 6
    ensures r.finish.Done? ==> r.effects[0] == OpenPipe
    ensures r.finish.Done? ==> r.effects[1] == Spawn(ProbeChild(ProbeArgv(sudoPath, username)))
    ensures r.finish.Done? ==> r.effects[2..5] == FeedPipe(password)
    ensures r.finish.Done? ==> r.effects[5] == Reap
    ensures TerminalWrites(r.effects) == []
  {
    if !os.pipeOk then Run([], Aborted(PipeFailed))
    else if !os.forkOk then Run([OpenPipe], Aborted(ForkFailed))
    else
      var effects := [OpenPipe, Spawn(ProbeChild(ProbeArgv(sudoPath, username)))] + FeedPipe(password) + [Reap];
      assert TerminalWrites(effects) == [] by {
        NoTerminalWrites(effects);
      }
      Run(effects, Done(Classify(StatusAfterWait(os.wait))))
  }

  /** The probe's verdict, on the child's fate: success exactly for exit
      code 0 or a wait that failed, the bare -1 exactly for a signal. */
  lemma CheckPasswordSudoVerdict(sudoPath: string, os: ProbeOs, username: string,
                                 password: CString, fate: Status)
    requires |password| + 2 <= PASS_BUFFER
    requires ValidStatus(fate)
    requires os.wait == Reaped(Encode(fate)) || os.wait == WaitFailed
    requires os.pipeOk && os.forkOk
    ensures var code := CheckPasswordSudo(sudoPath, os, username, password).finish.value;
            && (os.wait == WaitFailed ==> code == Success)
            && (os.wait == Reaped(Encode(fate)) ==>
                  && (code == Success <==> fate == Exited(0))
                  && (code == SignaledChild <==> fate.Killed?)
                  && (code == WrongUserOrPasswd <==> !(fate == Exited(0) || fate.Killed?)))
  {
    if os.wait == Reaped(Encode(fate)) {
      ClassifyMeaning(fate);
    } else {
      FailedWaitIsSuccess();
    }
  }

  /** The `run_sudo` relay from iteration `i`, with `p` pty reads and `q`
      standard-input reads already made. Each iteration first polls the
      child and stops unless it is still running; otherwise it serves the
      pty if readable, else standard input if readable. A pty read of 0 or
      -1 passes nothing on and does not stop the loop. */
  function SudoRelayFrom(ticks: seq<Tick>, pty: seq<ReadResult>, stdin: seq<ReadResult>,
                         i: nat, p: nat, q: nat): (r: RelayResult)
    requires i <= |ticks| && p <= |pty| && q <= |stdin|
    decreases |ticks| - i
    ensures i <= r.ticks <= |ticks| && p <= r.ptyReads <= |pty| && q <= r.stdinReads <= |stdin|
    ensures r.ending != PtyClosed
  {
    if i == |ticks| then RelayResult(OutOfEvents, i, p, q, [], [])
    else if !ticks[i].child.Running? then RelayResult(ChildGone, i + 1, p, q, [], [])
    else match ticks[i].ready
      case SelectError => RelayResult(SelectFailed, i + 1, p, q, [], [])
      case Ready(ptyReady, stdinReady) =>
        if ptyReady then
          if p == |pty| then RelayResult(OutOfEvents, i, p, q, [], [])
          else
            var rest := SudoRelayFrom(ticks, pty, stdin, i + 1, p + 1, q);
            rest.(toStdout := Payload(pty[p]) + rest.toStdout)
        else if stdinReady then
          if q == |stdin| then RelayResult(OutOfEvents, i, p, q, [], [])
          else
            var rest := SudoRelayFrom(ticks, pty, stdin, i + 1, p, q + 1);
            rest.(toPty := Payload(stdin[q]) + rest.toPty)
        else SudoRelayFrom(ticks, pty, stdin, i + 1, p, q)
  }

  /** The whole `run_sudo` relay. */
  function SudoRelay(ticks: seq<Tick>, pty: seq<ReadResult>, stdin: seq<ReadResult>): RelayResult
  {
    SudoRelayFrom(ticks, pty, stdin, 0, 0, 0)
  }

  /** Every byte read from the pty is written to standard output and every
      byte read from standard input is written to the pty, in read order,
      with nothing added or dropped. */
  lemma {:induction false} SudoRelayCopiesInOrder(ticks: seq<Tick>, pty: seq<ReadResult>,
      stdin: seq<ReadResult>, i: nat, p: nat, q: nat)
    requires i <= |ticks| && p <= |pty| && q <= |stdin|
    decreases |ticks| - i
    ensures var r := SudoRelayFrom(ticks, pty, stdin, i, p, q);
            && r.toStdout == Payloads(pty[p..r.ptyReads])
            && r.toPty == Payloads(stdin[q..r.stdinReads])
  {
    var r := SudoRelayFrom(ticks, pty, stdin, i, p, q);
    if i < |ticks| && ticks[i].child.Running? && ticks[i].ready.Ready? {
      if ticks[i].ready.pty {
        if p < |pty| {
          SudoRelayCopiesInOrder(ticks, pty, stdin, i + 1, p + 1, q);
          PayloadsFirst(pty, p, r.ptyReads);
        }
      } else if ticks[i].ready.stdin {
        if q < |stdin| {
          SudoRelayCopiesInOrder(ticks, pty, stdin, i + 1, p, q + 1);
          PayloadsFirst(stdin, q, r.stdinReads);
        }
      } else {
        SudoRelayCopiesInOrder(ticks, pty, stdin, i + 1, p, q);
      }
    }
  }

  /** Each iteration reads from at most one side. */
  lemma {:induction false} SudoRelayOneReadPerIteration(ticks: seq<Tick>, pty: seq<ReadResult>,
      stdin: seq<ReadResult>, i: nat, p: nat, q: nat)
    requires i <= |ticks| && p <= |pty| && q <= |stdin|
    decreases |ticks| - i
    ensures var r := SudoRelayFrom(ticks, pty, stdin, i, p, q);
            (r.ptyReads - p) + (r.stdinReads - q) <= r.ticks - i
  {
    if i < |ticks| && ticks[i].child.Running? && ticks[i].ready.Ready? {
      if ticks[i].ready.pty {
        if p < |pty| {
          SudoRelayOneReadPerIteration(ticks, pty, stdin, i + 1, p + 1, q);
        }
      } else if ticks[i].ready.stdin {
        if q < |stdin| {
          SudoRelayOneReadPerIteration(ticks, pty, stdin, i + 1, p, q + 1);
        }
      } else {
        SudoRelayOneReadPerIteration(ticks, pty, stdin, i + 1, p, q);
      }
    }
  }

  /** The loop keeps going exactly while the non-blocking wait reports the
      child as running: every iteration it completed saw it running, and it
      left through the wait exactly when the last poll did not. */
  lemma {:induction false} SudoRelayRunsWhileChildRuns(ticks: seq<Tick>, pty: seq<ReadResult>,
      stdin: seq<ReadResult>, i: nat, p: nat, q: nat)
    requires i <= |ticks| && p <= |pty| && q <= |stdin|
    decreases |ticks| - i
    ensures var r := SudoRelayFrom(ticks, pty, stdin, i, p, q);
            && (r.ending == ChildGone <==> i < r.ticks && !ticks[r.ticks - 1].child.Running?)
            && (forall k :: i <= k < r.ticks - 1 ==> ticks[k].child.Running?)
  {
    if i < |ticks| && ticks[i].child.Running? && ticks[i].ready.Ready? {
      if ticks[i].ready.pty {
        if p < |pty| {
          SudoRelayRunsWhileChildRuns(ticks, pty, stdin, i + 1, p + 1, q);
        }
      } else if ticks[i].ready.stdin {
        if q < |stdin| {
          SudoRelayRunsWhileChildRuns(ticks, pty, stdin, i + 1, p, q + 1);
        }
      } else {
        SudoRelayRunsWhileChildRuns(ticks, pty, stdin, i + 1, p, q);
      }
    }
  }

  /** The relay leaves through a failed `select` only in an iteration
      whose `select` failed. */
  lemma {:induction false} SudoRelaySelectFailure(ticks: seq<Tick>, pty: seq<ReadResult>,
      stdin: seq<ReadResult>, i: nat, p: nat, q: nat)
    requires i <= |ticks| && p <= |pty| && q <= |stdin|
    decreases |ticks| - i
    ensures var r := SudoRelayFrom(ticks, pty, stdin, i, p, q);
            r.ending == SelectFailed ==> i < r.ticks && ticks[r.ticks - 1].ready.SelectError?
  {
    if i < |ticks| && ticks[i].child.Running? && ticks[i].ready.Ready? {
      if ticks[i].ready.pty {
        if p < |pty| {
          SudoRelaySelectFailure(ticks, pty, stdin, i + 1, p + 1, q);
        }
      } else if ticks[i].ready.stdin {
        if q < |stdin| {
          SudoRelaySelectFailure(ticks, pty, stdin, i + 1, p, q + 1);
        }
      } else {
        SudoRelaySelectFailure(ticks, pty, stdin, i + 1, p, q);
      }
    }
  }

  /** Two iterations the sudo relay cannot tell apart: standard input's
      readiness may differ when the pty is ready. */
  predicate SameForSudo(a: Tick, b: Tick)
  {
    a.child == b.child &&
    match a.ready
    case SelectError => b.ready.SelectError?
    case Ready(ptyReady, stdinReady) =>
      b.ready.Ready? && b.ready.pty == ptyReady && (ptyReady || b.ready.stdin == stdinReady)
  }

  /** Standard input is never read in an iteration where the pty is
      readable: its readiness then makes no difference. */
  lemma {:induction false} SudoRelayDefersStdin(a: seq<Tick>, b: seq<Tick>,
      pty: seq<ReadResult>, stdin: seq<ReadResult>, i: nat, p: nat, q: nat)
    requires |a| == |b| && i <= |a| && p <= |pty| && q <= |stdin|
    requires forall k :: i <= k < |a| ==> SameForSudo(a[k], b[k])
    ensures SudoRelayFrom(a, pty, stdin, i, p, q) == SudoRelayFrom(b, pty, stdin, i, p, q)
    decreases |a| - i
  {
    if i < |a| && a[i].child.Running? {
      assert SameForSudo(a[i], b[i]);
      match a[i].ready
      case SelectError =>
      case Ready(ptyReady, stdinReady) =>
        if ptyReady {
          if p < |pty| {
            SudoRelayDefersStdin(a, b, pty, stdin, i + 1, p + 1, q);
          }
        } else if stdinReady {
          if q < |stdin| {
            SudoRelayDefersStdin(a, b, pty, stdin, i + 1, p, q + 1);
          }
        } else {
          SudoRelayDefersStdin(a, b, pty, stdin, i + 1, p, q);
        }
    }
  }

  /** The credential phase of `run_sudo`: open the pipe, start sudo with
      the real command in a pty, feed it the password line and close the
      pipe. */
  function SudoSetup(sudoPath: string, os: RunOs, username: string, password: CString,
                     command: string): (r: Run<()>)
    requires |password| + 2 <= PASS_BUFFER
    ensures !r.finish.Unfinished?
    ensures r.finish.Done? <==> os.pipeOk && os.forkOk
    ensures !os.pipeOk ==> r == Run([], Aborted(PipeFailed))
    ensures r.finish.Done? ==>
              r.effects == [OpenPipe, Spawn(RunChild(RunArgv(sudoPath, username, command)))] + FeedPipe(password)
    ensures TerminalWrites(r.effects) == []
  {
    if !os.pipeOk then Run([], Aborted(PipeFailed))
    else if !os.forkOk then Run([OpenPipe], Aborted(ForkFailed))
    else
      var setup := [OpenPipe, Spawn(RunChild(RunArgv(sudoPath, username, command)))] + FeedPipe(password);
      assert TerminalWrites(setup) == [] by {
        NoTerminalWrites(setup);
      }
      Run(setup, Done(()))
  }

  /** `run_sudo`: the credential phase, then the session: raw mode if
      standard input is a terminal, the relay until the child is no longer
      running, closing the pty and restoring the terminal. */
  function RunSudo(mode: RawMode, sudoPath: string, os: RunOs, username: string, password: CString,
                   command: string): (r: Run<()>)
    requires |password| + 2 <= PASS_BUFFER
    ensures r.finish.Done? ==> os.pipeOk && os.forkOk
    ensures !os.pipeOk ==> r.finish == Aborted(PipeFailed) && r.effects == []
    ensures r.finish.Unfinished? ==> SudoRelay(os.ticks, os.ptyReads, os.stdinReads).ending == OutOfEvents
  {
    AfterCredential(mode, SudoSetup(sudoPath, os, username, password, command),
                    os.capture, os.rawSetOk, SudoRelay(os.ticks, os.ptyReads, os.stdinReads),
                    Run([], Done(())), os.restoreOk)
  }

  /** Whenever `run_sudo` gets past the fork, the credential has been
      written and both pipe ends closed before anything touches the
      terminal and before the relay starts. */
  lemma RunSudoFeedsPipeFirst(mode: RawMode, sudoPath: string, os: RunOs, username: string, password: CString,
                              command: string)
    requires |password| + 2 <= PASS_BUFFER
    requires os.pipeOk && os.forkOk
    ensures var r := RunSudo(mode, sudoPath, os, username, password, command);
            && 5 <= |r.effects|
            && r.effects[..5] == [OpenPipe, Spawn(RunChild(RunArgv(sudoPath, username, command)))] + FeedPipe(password)
            && (forall k :: 0 <= k < 5 ==> !r.effects[k].SetTerminal? && !r.effects[k].Relayed?)
  {
    var setup := SudoSetup(sudoPath, os, username, password, command);
    var r := RunSudo(mode, sudoPath, os, username, password, command);
    assert setup.effects <= r.effects;
    assert r.effects[..5] == setup.effects;
  }

  /** A `run_sudo` that returned ran the relay in raw mode: its effects are
      exactly opening the pipe, spawning sudo with the real command, the
      credential hand-over, then the raw state (with a terminal), the relay,
      closing the pty and the restore. */
  lemma RunSudoOrder(mode: RawMode, sudoPath: string, os: RunOs, username: string, password: CString,
                     command: string)
    requires |password| + 2 <= PASS_BUFFER
    requires RunSudo(mode, sudoPath, os, username, password, command).finish.Done?
    ensures RunSudo(mode, sudoPath, os, username, password, command).effects ==
              [OpenPipe, Spawn(RunChild(RunArgv(sudoPath, username, command)))] + FeedPipe(password)
              + ReturnedSession(mode, os.capture, SudoRelay(os.ticks, os.ptyReads, os.stdinReads), [])
  {
    AfterCredentialOrder(mode, SudoSetup(sudoPath, os, username, password, command), os.capture, os.rawSetOk,
                         SudoRelay(os.ticks, os.ptyReads, os.stdinReads), Run([], Done(())), os.restoreOk);
  }

  /** On return from `run_sudo` the relay of `SudoRelay` ended because the
      child was no longer running, the pty was closed, and the terminal was
      put back to the captured state last; raw mode was entered exactly when
      `tcgetattr` captured a state. */
  lemma RunSudoRestoresTerminal(mode: RawMode, sudoPath: string, os: RunOs, username: string, password: CString,
                                command: string)
    requires |password| + 2 <= PASS_BUFFER
    requires RunSudo(mode, sudoPath, os, username, password, command).finish.Done?
    ensures var r := RunSudo(mode, sudoPath, os, username, password, command);
            && TerminalWrites(r.effects) ==
                 (if os.capture.Captured? then [RawState(mode, os.capture.state), os.capture.state] else [])
            && (os.capture.Captured? ==> r.effects[|r.effects| - 1] == SetTerminal(os.capture.state))
            && SudoRelay(os.ticks, os.ptyReads, os.stdinReads).ending == ChildGone
            && ClosePty in r.effects
  {
    var setup := SudoSetup(sudoPath, os, username, password, command);
    var relay := SudoRelay(os.ticks, os.ptyReads, os.stdinReads);
    AfterCredentialRestores(mode, setup, os.capture, os.rawSetOk, relay, Run([], Done(())), os.restoreOk);
    AfterCredentialRelays(mode, setup, os.capture, os.rawSetOk, relay, Run([], Done(())), os.restoreOk);
  }

  /** When `run_sudo` terminates the process, the terminal is left as it was
      or in raw mode, never restored; a standard input that is no terminal
      is never touched. */
  lemma RunSudoAbortLeavesTerminal(mode: RawMode, sudoPath: string, os: RunOs, username: string, password: CString,
                                   command: string)
    requires |password| + 2 <= PASS_BUFFER
    ensures var r := RunSudo(mode, sudoPath, os, username, password, command);
            && (!r.finish.Done? ==> |TerminalWrites(r.effects)| <= 1)
            && (!r.finish.Done? ==>
                  TerminalWrites(r.effects) ==
                    (if os.pipeOk && os.forkOk && os.capture.Captured? && os.rawSetOk
                     then [RawState(mode, os.capture.state)] else []))
            && (os.capture.NotATty? ==> TerminalWrites(r.effects) == [])
  {
    AfterCredentialAbortLeavesTerminal(mode, SudoSetup(sudoPath, os, username, password, command),
                                       os.capture, os.rawSetOk, SudoRelay(os.ticks, os.ptyReads, os.stdinReads),
                                       Run([], Done(())), os.restoreOk);
  }
}

=== FILE: terminal.dfy ===
/** The terminal attributes the program reads and writes with `tcgetattr`
    and `tcsetattr`: the four flag words and the control-character array,
    with the flag values of Linux's C library. */
module Terminal {

  type Flags = bv32

  /** Length of the control-character array and the two slots raw mode sets. */
  const NCCS: nat := 32
  const VTIME: nat := 5
  const VMIN: nat := 6

  type ControlChars = cc: seq<bv8> | |cc| == NCCS witness seq(32, _ => 0)

  /** A control-character array with every slot zero. */
  function NoControlChars(): (cc: ControlChars)
    ensures forall k :: 0 <= k < NCCS ==> cc[k] == 0
  {
    Zeros8(NCCS)
  }

  function Zeros8(n: nat): (z: seq<bv8>)
    ensures |z| == n && forall k :: 0 <= k < n ==> z[k] == 0
  {
    if n == 0 then [] else Zeros8(n - 1) + [0]
  }

  datatype Termios = Termios(iflag: Flags, oflag: Flags, cflag: Flags, lflag: Flags, cc: ControlChars)

  // Input flags.
  const BRKINT: Flags := 0x2
  const INPCK: Flags := 0x10
  const ISTRIP: Flags := 0x20
  const ICRNL: Flags := 0x100
  const IXON: Flags := 0x400
  // Output flags.
  const OPOST: Flags := 0x1
  // Control flags.
  const CS8: Flags := 0x30
  const CREAD: Flags := 0x80
  const B38400: Flags := 0xf
  // Local flags.
  const ISIG: Flags := 0x1
  const ICANON: Flags := 0x2
  const ECHO: Flags := 0x8
  const IEXTEN: Flags := 0x8000

  /** The flags raw mode clears in each word. */
  const RawInputOff: Flags := BRKINT | ICRNL | INPCK | ISTRIP | IXON
  const RawOutputOff: Flags := OPOST
  const RawLocalOff: Flags := ECHO | ICANON | IEXTEN | ISIG

  /** True when `raw` is `orig` with exactly the raw-mode changes: the listed
      flags cleared, 8-bit characters selected, reads returning after 0.8 s
      or as soon as a byte arrives, and nothing else touched. */
  predicate RawOf(orig: Termios, raw: Termios)
  {
    && raw.iflag & RawInputOff == 0 && raw.iflag | RawInputOff == orig.iflag | RawInputOff
    && raw.oflag & RawOutputOff == 0 && raw.oflag | RawOutputOff == orig.oflag | RawOutputOff
    && raw.cflag & CS8 == CS8 && raw.cflag & !CS8 == orig.cflag & !CS8
    && raw.lflag & RawLocalOff == 0 && raw.lflag | RawLocalOff == orig.lflag | RawLocalOff
    && raw.cc[VMIN] == 0 && raw.cc[VTIME] == 8
    && (forall k :: 0 <= k < NCCS && k != VMIN && k != VTIME ==> raw.cc[k] == orig.cc[k])
  }

  /** The attribute set `tty_raw` installs when it copies from `orig`. The
      control characters are assigned four times over; the last pair wins. */
  function TtyRaw(orig: Termios): (raw: Termios)
    ensures RawOf(orig, raw)
  {
    Termios(orig.iflag & !RawInputOff, orig.oflag & !RawOutputOff,
            orig.cflag | CS8, orig.lflag & !RawLocalOff,
            orig.cc[VMIN := 5][VTIME := 8]
                   [VMIN := 0][VTIME := 0]
                   [VMIN := 2][VTIME := 0]
                   [VMIN := 0][VTIME := 8])
  }

  /** `RawOf` pins the result down: there is one raw form of each state. */
  lemma RawOfUnique(orig: Termios, a: Termios, b: Termios)
    requires RawOf(orig, a) && RawOf(orig, b)
    ensures a == b
  {
    assert a.cc == b.cc by {
      forall k | 0 <= k < NCCS
        ensures a.cc[k] == b.cc[k]
      {
      }
    }
  }

  /** Entering raw mode from a raw state changes nothing. */
  lemma {:induction false} TtyRawIdempotent(orig: Termios)
    ensures TtyRaw(TtyRaw(orig)) == TtyRaw(orig)
  {
    var once := TtyRaw(orig);
    var twice := TtyRaw(once);
    assert RawOf(orig, twice) by {
      assert RawOf(once, twice);
    }
    RawOfUnique(orig, twice, once);
  }

  /** The `orig_termios` that `tty_raw` reads: a file-static object of the
      main program, so zero-initialised, and never assigned anywhere. The
      backends capture the real state into statics of their own. */
  const ProgramStatic: Termios := Termios(0, 0, 0, 0, NoControlChars())

  /** The attribute set the program installs, as written: whatever state the
      backend captured, `tty_raw` copies from `ProgramStatic`. */
  function RawAsWritten(captured: Termios): (raw: Termios)
    ensures raw.cflag == CS8
    ensures raw.iflag == 0 && raw.oflag == 0 && raw.lflag == 0
  {
    TtyRaw(ProgramStatic)
  }

  /** Which `tty_raw` a run uses: the program as written, which derives the
      raw state from `ProgramStatic`, or the corrected one, which derives
      it from the state the backend captured. */
  datatype RawMode = AsWritten | Corrected

  /** The state a backend installs after capturing `captured`. */
  function RawState(mode: RawMode, captured: Termios): (raw: Termios)
    ensures mode.Corrected? ==> RawOf(captured, raw)
    ensures mode.AsWritten? ==> RawOf(ProgramStatic, raw)
  {
    if mode.Corrected? then TtyRaw(captured) else RawAsWritten(captured)
  }

  /** The installed state does not depend on the captured one at all. */
  lemma RawAsWrittenIgnoresCapture(a: Termios, b: Termios)
    ensures RawAsWritten(a) == RawAsWritten(b)
  {
  }

  const Console: Termios := Termios(0, 0, B38400 | CS8 | CREAD, 0, NoControlChars())

  /** A console at 38400 baud with the receiver on: the evidently intended
      raw form keeps both, the installed one drops the receiver and sets the
      line speed to 0, which asks the driver to hang up. */
  lemma RawAsWrittenDropsReceiver()
    ensures TtyRaw(Console).cflag & CREAD == CREAD
    ensures TtyRaw(Console).cflag & B38400 == B38400
    ensures RawAsWritten(Console).cflag & CREAD == 0
    ensures RawAsWritten(Console).cflag & B38400 == 0
  {
  }

  /** What `tcgetattr` on standard input reported. */
  datatype Capture = Captured(state: Termios) | NotATty | CaptureFailed
}

=== FILE: wait_status.dfy ===
/** The status word `waitpid` stores, decoded as the C library's `WIFEXITED`,
    `WEXITSTATUS`, `WIFSIGNALED` and `WTERMSIG` macros decode it on Linux,
    and the classification both password checks apply to it. */
module WaitStatus {
  import opened Errors

  /** The 16 low bits of the status word, the only ones the kernel sets. */
  type RawStatus = s: int | 0 <= s < 0x1_0000

  /** `WIFEXITED`: the low seven bits are clear. */
  predicate IfExited(s: RawStatus)
  {
    s % 128 == 0
  }

  /** `WEXITSTATUS`: the second byte. */
  function ExitStatus(s: RawStatus): int
  {
    (s / 256) % 256
  }

  /** `WIFSIGNALED`: the low seven bits are neither 0 (exited) nor 0x7f
      (stopped or continued). */
  predicate IfSignaled(s: RawStatus)
  {
    s % 128 != 0 && s % 128 != 127
  }

  /** `WTERMSIG`: the low seven bits. */
  function TermSig(s: RawStatus): int
  {
    s % 128
  }

  /** What can happen to a child, independently of how it is encoded. */
  datatype Status =
    | Exited(code: int)
    | Killed(sig: int, coreDumped: bool)
    | Stopped(sig: int)
    | Continued

  predicate ValidStatus(x: Status)
  {
    match x
    case Exited(code) => 0 <= code < 256
    case Killed(sig, _) => 1 <= sig < 127
    case Stopped(sig) => 0 <= sig < 256
    case Continued => true
  }

  /** The kernel's encoding of a child's fate into the status word. */
  function Encode(x: Status): RawStatus
    requires ValidStatus(x)
  {
    match x
    case Exited(code) => code * 256
    case Killed(sig, core) => sig + (if core then 128 else 0)
    case Stopped(sig) => sig * 256 + 127
    case Continued => 0xffff
  }

  /** The macros recover what the kernel encoded. */
  lemma MacrosDecode(x: Status)
    requires ValidStatus(x)
    ensures IfExited(Encode(x)) <==> x.Exited?
    ensures x.Exited? ==> ExitStatus(Encode(x)) == x.code
    ensures IfSignaled(Encode(x)) <==> x.Killed?
    ensures x.Killed? ==> TermSig(Encode(x)) == x.sig
  {
  }

  /** The verdict both password checks derive from the status word: exit
      code 0 is success, a signal is the bare -1, anything else is a wrong
      user or password. */
  function Classify(s: RawStatus): (r: ErrorCode)
    ensures r == Success || r == WrongUserOrPasswd || r == SignaledChild
  {
    if IfExited(s) && ExitStatus(s) == 0 then Success
    else if IfSignaled(s) then SignaledChild
    else WrongUserOrPasswd
  }

  /** The verdict, stated on the child's fate rather than on its encoding. */
  lemma ClassifyMeaning(x: Status)
    requires ValidStatus(x)
    ensures Classify(Encode(x)) == Success <==> x == Exited(0)
    ensures Classify(Encode(x)) == SignaledChild <==> x.Killed?
    ensures Classify(Encode(x)) == WrongUserOrPasswd <==>
              (x.Exited? && x.code != 0) || x.Stopped? || x.Continued?
  {
    MacrosDecode(x);
  }

  /** The outcome of a blocking `waitpid` whose return value nobody checks. */
  datatype WaitResult = Reaped(status: RawStatus) | WaitFailed

  /** The status word after the wait: a failed wait leaves the variable at
      the 0 it was initialised with. */
  function StatusAfterWait(w: WaitResult): (s: RawStatus)
    ensures w.Reaped? ==> s == w.status
    ensures w.WaitFailed? ==> s == 0
  {
    match w
    case Reaped(status) => status
    case WaitFailed => 0
  }

  /** A failed wait reads as a child that exited with code 0. */
  lemma FailedWaitIsSuccess()
    ensures Classify(StatusAfterWait(WaitFailed)) == Success
    ensures StatusAfterWait(WaitFailed) == Encode(Exited(0))
  {
  }
}
